=== FILE: README.md ===
# HealthBot conversation core in Dafny

HealthBot is a console health-education assistant. The patient names a
health topic. The bot searches the web for it, has a language model write a
patient-friendly summary, waits until the patient has read it, asks a quiz
question, grades the answer and then offers three choices: another question
on the same topic, a new topic, or exit. The conversation is a LangGraph
state graph of eight nodes over one shared state record.

This project models that core:

- `state.dfy` (module `HealthState`): the shared `State` record, its schema
  defaults and `reset_for_new_topic`.
- `utils.dfy` (module `Utils`): input stripping, the two input validators,
  the display formatters and the separator.
- `tools.dfy` (module `Tools`): the Tavily search wrapper, with its missing-key
  error, query construction and result formatting. The Tavily client is a
  function parameter.
- `grading.dfy` (module `Grading`): the parser that turns the grading model's
  reply into a grade and feedback, together with a reference description of
  what it returns.
- `nodes.dfy` (module `Nodes`): the eight nodes. Console input is a sequence
  of raw lines. A node that reads returns the lines it left unread. The
  language model and the search client sit in an `Env` of functions.
- `workflow.dfy` (module `Workflow`): the graph's edges, `route_user_choice`,
  `create_config`, `initialize_empty_state`, and a run of the graph under a
  step budget.
- `text.dfy` (module `Text`): the parts of Python's `str` the core relies on,
  such as `strip`, `lower`, digit filtering, `replace`, `split('\n')` and
  integer formatting.
- `wrappers.dfy` and `errors.dfy`: `Option`/`Result`/`Outcome` and the
  exceptions the core raises.

A raised exception is a `Failure` value. A graph run stops at the node that
raised it.

## Model

| member | source | states |
|---|---|---|
| Text.Strip | project/healthbot/src/utils.py:27 | The stripped text has no leading or trailing whitespace and is no longer than the input. It is empty exactly when the input is all whitespace. |
| Text.StripIdempotent | project/healthbot/src/utils.py:27 | Stripping an already stripped text changes nothing: strip(strip(s)) == strip(s). |
| Text.LowerChar | project/healthbot/src/nodes.py:197 | One character of `lower()`: a capital A-Z becomes the matching small letter, and every other character is kept. The result is never a capital. |
| Text.Lower | project/healthbot/src/nodes.py:197 | `lower()` keeps the length and lower-cases each character in place. |
| Text.LowerShape | project/healthbot/src/nodes.py:477 | A lower-cased text has no capitals, and its whitespace sits where it was. |
| Text.LowerIdempotent | project/healthbot/src/nodes.py:477 | Lower-casing twice is the same as lower-casing once. |
| Text.LowerKeepsTrimmed | project/healthbot/src/nodes.py:477 | Lower-casing a stripped text leaves it stripped, so `strip()` after `lower()` changes nothing: strip(lower(strip(s))) == lower(strip(s)). |
| Text.Digits | project/healthbot/src/nodes.py:407 | Keeping only the digits yields an all-digit string no longer than the input. |
| Text.DigitsStrip | project/healthbot/src/nodes.py:406 | Stripping whitespace does not change which digits a grade line contains. |
| Text.DecimalValue | project/healthbot/src/nodes.py:407 | `int()` of a digit string is 0 exactly when every digit is 0. Together with NatToString it reads a numeral back as its number. |
| Text.NatToString | project/healthbot/src/nodes.py:421 | The decimal rendering of a grade is non-empty and all digits. It has no leading zero, and it reads back as the same number. |
| Text.IntToString | project/healthbot/src/utils.py:58-60 | `str()` of an integer is non-empty. It starts with `-` exactly when the integer is negative, and otherwise is a numeral that reads back as the integer. |
| Text.RemoveAll | project/healthbot/src/nodes.py:406-412 | `replace(marker, "")` never lengthens the text. RemoveAbsent and DigitsRemoveAll state what it keeps. |
| Text.RemoveAbsent | project/healthbot/src/nodes.py:412 | `replace(marker, "")` leaves a text that does not contain the marker unchanged. |
| Text.DigitsRemoveAll | project/healthbot/src/nodes.py:406-407 | Removing the digit-free `GRADE:` marker does not change the digits of the line. |
| Text.SplitLines | project/healthbot/src/nodes.py:399 | `split('\n')` always yields at least one piece, and no piece contains a newline. |
| Text.JoinLines | project/healthbot/src/nodes.py:415 | `'\n'.join(lines)` begins with the first line and puts a newline right after it when there is a second line. JoinSplit and SplitJoin make it the inverse of SplitLines. |
| Text.JoinSplit | project/healthbot/src/nodes.py:399 | Joining the pieces of `split('\n')` with newlines gives back the original text. |
| Text.SplitJoin | project/healthbot/src/nodes.py:415 | Splitting a newline-join of newline-free lines gives back those lines. |
| HealthState.ResetForNewTopic | project/healthbot/src/state.py:40-63 | The reset clears every topic-scoped field, sets the quiz count to 0, and keeps the messages and the session id. |
| HealthState.ResetIsSchemaDefaults | project/healthbot/src/state.py:53-61 | A reset state equals the schema defaults of state.py:29-38 with the old messages and session id. |
| HealthState.ResetFixedPoints | project/healthbot/src/state.py:40-63 | The reset leaves a state unchanged if and only if its topic-scoped fields are already cleared. |
| HealthState.ResetIdempotent | project/healthbot/src/state.py:40-63 | Resetting twice is the same as resetting once. |
| HealthState.ResetDeterminedByKeptFields | project/healthbot/src/state.py:44 | Two states with the same messages and session id reset to the same state. |
| Utils.AskUserForInput | project/healthbot/src/utils.py:17-28 | The response carries no surrounding whitespace. It is empty exactly when the typed line is all whitespace. |
| Utils.ValidateNonEmptyInput | project/healthbot/src/utils.py:30-43 | Validation fails if and only if the input is empty or all whitespace. The error is a ValueError "<field> cannot be empty". |
| Utils.ValidateTopicLength | project/healthbot/src/utils.py:45-61 | Validation passes if and only if min <= length <= max. A short topic gets the "at least" message. A long one gets the "no more than" message, and the short check comes first. |
| Utils.FormattersAreIdentity | project/healthbot/src/utils.py:63-86 | Both display formatters return their text unchanged, whatever the width. |
| Utils.Separator | project/healthbot/src/utils.py:107-109 | The separator is `length` copies of the character, and empty for a non-positive length. |
| Utils.SeparatorDefault | project/healthbot/src/utils.py:107 | The default separator is fifty `-`. |
| Utils.FormatGradeReport | project/healthbot/src/utils.py:88-105 | The report is the banner, then "Grade: g/100" and a blank line, then "Explanation:" and the feedback. It ends with the fifty-`=` rule and a newline, and its length is fixed by the parts. |
| Utils.ReportRuleShape | project/healthbot/src/utils.py:99 | The report's rule is fifty `=`. |
| Tools.SearchQuery | project/healthbot/src/tools.py:70 | The query is the topic followed by " patient education medical information". |
| Tools.SearchQueryInjective | project/healthbot/src/tools.py:70 | Different topics give different queries. |
| Tools.Snippet | project/healthbot/src/tools.py:82 | A snippet is the first 300 characters of the content, or all of it when shorter. |
| Tools.Label | project/healthbot/src/tools.py:80 | Label of result i: the number i, then ". ". |
| Tools.ContentSnippet | project/healthbot/src/tools.py:82 | The content line shows at most 300 characters, taken from the content or from "No content" when the key is missing. |
| Tools.Entry | project/healthbot/src/tools.py:80-82 | An entry lays out a newline, then "i. ", then the title (or "No title"), a newline and "   Source: " with the URL (or "No URL"), then a newline and three spaces. After that come the content snippet and "...\n". Its length is exactly the sum of those parts. |
| Tools.EntryDefaults | project/healthbot/src/tools.py:80-82 | A result with no title, URL or content key shows "No title", "No URL" and "No content". |
| Tools.EntryCutsLongContent | project/healthbot/src/tools.py:82 | Content longer than 300 characters is cut to its first 300, followed directly by "...\n". |
| Tools.ConcatNumberedSplit | project/healthbot/src/tools.py:79-82 | The numbered concatenation splits at any index j into the entries before j, entry j numbered first+j, and the entries after. |
| Tools.Entries | project/healthbot/src/tools.py:79-82 | The entries text is empty exactly when there are no hits, and otherwise starts with a newline. |
| Tools.EntriesSplit | project/healthbot/src/tools.py:79-82 | Hit j's entry appears between the entries before and after it, numbered first+j. |
| Tools.EntriesSnoc | project/healthbot/src/tools.py:79-82 | Appending a hit appends its entry, numbered one past the earlier hits. |
| Tools.FormatResults | project/healthbot/src/tools.py:77-84 | The text is never empty. It is "No results found" exactly when there is no result list or the list is empty; otherwise it is the entries numbered from 1. |
| Tools.SearchMedicalInformation | project/healthbot/src/tools.py:36-86 | A missing or empty key gives an EnvironmentError. Otherwise a client failure is wrapped as "Error searching for medical information: …", and a response gives its non-empty formatted text. |
| Tools.MissingKeyNeverSearches | project/healthbot/src/tools.py:38-42 | Without a key the outcome does not depend on the search client, because the client is never consulted. |
| Grading.MarkersExclusive | project/healthbot/src/nodes.py:404-411 | No line starts with both GRADE: and EXPLANATION:, so the order of the two tests never matters. |
| Grading.Clamp | project/healthbot/src/nodes.py:408 | The clamped grade is in 0..100 and equals the input when that is already in range. |
| Grading.LineGrade | project/healthbot/src/nodes.py:405-410 | The grade read from a GRADE line is always in 0..100. |
| Grading.LineGradeFromDigits | project/healthbot/src/nodes.py:406-410 | A GRADE line with no digits gives the fallback 70. Otherwise it gives its digits, read as one decimal number and clamped. |
| Grading.ExplanationFeedback | project/healthbot/src/nodes.py:412-415 | The feedback begins with the EXPLANATION line's own text (marker deleted, stripped). It is exactly that text if and only if the line is the reply's last. |
| Grading.Scan | project/healthbot/src/nodes.py:403-416 | The scan stops inside the reply. Starting from an in-range grade with a percent-valued reader, it keeps the grade in 0..100. |
| Grading.ParseGrading | project/healthbot/src/nodes.py:396-416 | The parsed grade is always in 0..100. |
| Grading.ScanBoundExists | project/healthbot/src/nodes.py:403-416 | Every reply has a stopping point: its first EXPLANATION line, or its end when there is none. |
| Grading.ScanBoundUnique | project/healthbot/src/nodes.py:411-416 | That stopping point is unique. |
| Grading.ScanStopsAtBound | project/healthbot/src/nodes.py:411-416 | The loop stops at the first EXPLANATION line, or runs off the end. |
| Grading.ScanNoGrade | project/healthbot/src/nodes.py:400-404 | With no GRADE line before the stopping point, the initial grade 0 survives. |
| Grading.ScanLastGrade | project/healthbot/src/nodes.py:403-410 | The grade comes from the last GRADE line before the stopping point; later GRADE lines overwrite earlier ones. |
| Grading.ParseGradingSpec | project/healthbot/src/nodes.py:396-416 | The reference description of the parse. With no GRADE line before the first EXPLANATION line the grade is 0; otherwise it is read from the last such line. The feedback is "" when there is no EXPLANATION line, and otherwise is read from that line onward. |
| Grading.JoinLinesSplit | project/healthbot/src/nodes.py:415 | Joining lines splits at any line boundary into a head, a newline and a tail. |
| Grading.FeedbackTailVerbatim | project/healthbot/src/nodes.py:412-415 | Everything after the first EXPLANATION line reaches the feedback verbatim: the feedback is that line's text, a newline, then the reply's rest. |
| Grading.ReplyLines | project/healthbot/src/nodes.py:396-399 | A two-line reply in the documented format splits into exactly its GRADE and EXPLANATION lines. |
| Grading.GradeLineValue | project/healthbot/src/nodes.py:404-408 | "GRADE: n" for n in 0..100 is a grade line that reads back as n. |
| Grading.ExplanationLineValue | project/healthbot/src/nodes.py:411-412 | "EXPLANATION: e" is an explanation line whose text reads back as e, provided e is trimmed, non-empty, newline-free and free of the marker. |
| Grading.TwoLineParse | project/healthbot/src/nodes.py:403-416 | A reply of one GRADE line and one EXPLANATION line parses to that line's grade and that line's explanation text. |
| Grading.TwoLineReplyParse | project/healthbot/src/nodes.py:396-416 | A two-line reply parses to the grade read from its GRADE line and exactly its explanation. |
| Grading.WellFormedReplyRoundTrip | project/healthbot/src/nodes.py:385-416 | A reply in the format the prompt asks for ("GRADE: n", newline, "EXPLANATION: e") parses back to n and e. |
| Grading.DigitlessGradeFallsBack | project/healthbot/src/nodes.py:407-410 | A GRADE line without digits makes `int('')` raise, so the grade becomes 70 and the explanation is still read. |
| Grading.LastLineFeedback | project/healthbot/src/nodes.py:412-415 | An EXPLANATION line that is the reply's last line gives just its own text. |
| Grading.ExampleGoodJob | project/healthbot/src/nodes.py:389-391 | The prompt's example "GRADE: 85" / "EXPLANATION: Good job." parses to 85 and "Good job.". |
| Grading.FractionGradeClampsTo100 | project/healthbot/src/nodes.py:407-408 | "GRADE: 85/100" concatenates all its digits (85100), so it and every fraction over 100 or more clamp to 100. |
| Nodes.ReadUntil | project/healthbot/src/nodes.py:488-490 | A re-prompt loop stops at the first accepted line, or it accepts no line at all. |
| Nodes.FirstAcceptedUnique | project/healthbot/src/nodes.py:488-490 | The first accepted line is unique. |
| Nodes.ReadUntilFindsFirst | project/healthbot/src/nodes.py:488-490 | If line k is the first accepted one, the loop stops exactly there. |
| Nodes.TopicAcceptedIff | project/healthbot/src/nodes.py:47-54 | A typed topic passes both validators if and only if its stripped form has 3 to 500 characters. |
| Nodes.AskForTopic | project/healthbot/src/nodes.py:23-61 | On success, some input is consumed and the topic is set, non-empty and 3..500 long. One Human and one AI message are appended; nothing else changes. A failure means the input ran out. |
| Nodes.AskForTopicTakesFirstValid | project/healthbot/src/nodes.py:47-59 | Invalid topics are re-asked. The first valid line, stripped, becomes the topic and input resumes after it. |
| Nodes.AskForTopicExhausted | project/healthbot/src/nodes.py:51-54 | With no valid line the node keeps asking until the input runs out. |
| Nodes.SearchMedicalInfo | project/healthbot/src/nodes.py:68-98 | A missing or empty topic raises "Health topic not set before search". Otherwise a search failure propagates, and a success stores non-empty results and logs one AI message. |
| Nodes.SearchNeedsTopic | project/healthbot/src/nodes.py:80-83 | Without a topic the node fails with a ValueError before any search. |
| Nodes.SummarizeResults | project/healthbot/src/nodes.py:105-157 | Empty results raise "No search results to summarize". Otherwise a model failure propagates, and a completion becomes the summary with one AI message logged. |
| Nodes.SearchFeedsSummarizer | project/healthbot/src/nodes.py:88-122 | After a successful search, the summarizer never fails for lack of results. |
| Nodes.ReadyLength | project/healthbot/src/nodes.py:195-197 | An accepted acknowledgement is five letters once stripped. |
| Nodes.PresentSummary | project/healthbot/src/nodes.py:164-204 | A missing summary raises "No summary to present". Otherwise the node reads lines until "ready" in any case; on success it appends the two acknowledgement messages and changes nothing else. |
| Nodes.PresentSummaryStopsAtReady | project/healthbot/src/nodes.py:195-202 | The node stops at the first line that reads "ready" and resumes input after it. |
| Nodes.PresentSummaryWaits | project/healthbot/src/nodes.py:197-199 | Without a "ready" line the node waits until the input runs out. |
| Nodes.AdditionalInstruction | project/healthbot/src/nodes.py:240-242 | The prompt asks for a different question exactly when the count is above 1. |
| Nodes.QuestionLabel | project/healthbot/src/nodes.py:273 | The "(Question n)" label is present exactly when the count is above 1. |
| Nodes.GenerateQuiz | project/healthbot/src/nodes.py:211-280 | A missing summary raises "No summary available for quiz generation". Otherwise a model failure propagates. A completion, stripped, becomes the question; the quiz count goes up by one; one "Quiz …" AI message is logged. |
| Nodes.PresentQuiz | project/healthbot/src/nodes.py:287-327 | A missing question raises "No quiz question available". Otherwise the node reads one line. A blank answer raises "Quiz answer cannot be empty" with no re-prompt. A non-blank answer is stored stripped and logged as "My answer: …". |
| Nodes.PresentQuizAnswer | project/healthbot/src/nodes.py:320-325 | A stored answer is non-empty and trimmed, and exactly one line was read. |
| Nodes.EvaluateAnswer | project/healthbot/src/nodes.py:334-429 | Unless answer, question and summary are all set and non-empty, the node raises "Missing required fields for evaluation". Otherwise a model failure propagates, and a completion is parsed into the grade and feedback. The stored grade is always in 0..100. |
| Nodes.EvaluateWellFormedReply | project/healthbot/src/nodes.py:385-422 | When the model answers in the documented format, the node stores exactly that grade and explanation. |
| Nodes.NormalizeAnswerIsLowerStrip | project/healthbot/src/nodes.py:477 | The normalised answer `ask_user_for_input(...).lower().strip()` is the stripped line, lower-cased; the second strip removes nothing. |
| Nodes.ChoiceOf | project/healthbot/src/nodes.py:477-492 | An accepted answer selects more_questions exactly when, normalised, it is "1" or "more_questions". It selects new_topic exactly for "2" or "new_topic", and exit exactly for "3" or "exit". |
| Nodes.IsChoiceIff | project/healthbot/src/nodes.py:477-490 | An answer is accepted exactly when its stripped, lower-cased text is one of "1", "2", "3", "more_questions", "new_topic" and "exit". |
| Nodes.ValidResponsesShape | project/healthbot/src/nodes.py:479-486 | The table has exactly the six keys "1", "2", "3" and the three names. "1" selects more_questions, "2" new_topic and "3" exit, and each name selects itself. |
| Nodes.ApplyChoice | project/healthbot/src/nodes.py:493-516 | more_questions and exit record the choice and change only the messages. new_topic logs its message and then resets the state. |
| Nodes.ApplyChoiceMessages | project/healthbot/src/nodes.py:495-511 | more_questions appends two messages, and new_topic and exit one each. Earlier messages are kept. |
| Nodes.AskContinue | project/healthbot/src/nodes.py:436-516 | On success some input is consumed and the state is the result of one of the three choices. A failure means the input ran out. |
| Nodes.AskContinueTakesFirstChoice | project/healthbot/src/nodes.py:477-492 | The node applies the choice of the first line that is valid after lower-casing and stripping. |
| Nodes.AskContinueExhausted | project/healthbot/src/nodes.py:488-490 | Without a valid line the node re-prompts until the input runs out. |
| Nodes.ApplyChoiceIntended | project/healthbot/src/nodes.py:502-507 | The corrected new_topic branch: reset the topic, but keep the recorded choice. |
| Nodes.AskContinueIntended | project/healthbot/src/nodes.py:436-516 | The corrected node fails exactly when the original does and consumes the same input. It always leaves one of the three choices recorded. |
| Nodes.AskContinueIntendedTakesFirstChoice | project/healthbot/src/nodes.py:477-492 | The corrected node applies the choice of the same first valid line. |
| Workflow.RouteUserChoice | project/healthbot/src/workflow.py:60-84 | The route is a key of the path map. It is "generate_quiz" if and only if the choice is more_questions, and "ask_for_topic" if and only if it is new_topic. Otherwise, including no choice, it is "end". |
| Workflow.Next | project/healthbot/src/workflow.py:50-84 | Every move the graph makes from a vertex other than END follows a declared edge, and no move returns to START. |
| Workflow.RouterTargets | project/healthbot/src/workflow.py:76-84 | `ask_continue` can lead exactly to generate_quiz, ask_for_topic and END. |
| Workflow.OnlyAskContinueEnds | project/healthbot/src/workflow.py:50-84 | Only `ask_continue`, routed to "end", reaches END. |
| Workflow.FixedEdgesAreALine | project/healthbot/src/workflow.py:50-57 | The fixed edges form one line, START to ask_continue. |
| Workflow.PathWithoutAskContinueClimbs | project/healthbot/src/workflow.py:50-57 | A path that avoids `ask_continue` moves one place down the line per step. |
| Workflow.CyclesPassAskContinue | project/healthbot/src/workflow.py:50-84 | Every cycle in the graph passes through `ask_continue`. |
| Workflow.NewTopicEndsSession | project/healthbot/src/nodes.py:502-507 | As written, more_questions and exit lead where the workflow documents, but new_topic leads to END. |
| Workflow.IntendedChoiceRoutesAsDocumented | project/healthbot/src/workflow.py:60-74 | With the corrected branch, every choice leads where documented: more_questions to generate_quiz, new_topic to ask_for_topic, exit to END. |
| Workflow.ChoiceRoute | project/healthbot/src/nodes.py:493-507 | After the node as written applies any choice, only more_questions routes to generate_quiz; everything else routes to END. |
| Workflow.AnswerOneAsksAnotherQuestion | project/healthbot/src/nodes.py:477-492 | When the first accepted answer is "1" (after strip and lower), ask_continue succeeds and the graph moves to generate_quiz. |
| Workflow.AskContinueNewTopicEnds | project/healthbot/src/nodes.py:477-507 | Whatever line selects new_topic, the node as written succeeds and the graph moves to END. |
| Workflow.AskContinueIntendedNewTopic | project/healthbot/src/workflow.py:71-72 | With the corrected node, a line that selects new_topic leads to ask_for_topic. |
| Workflow.InitializeEmptyState | project/healthbot/src/workflow.py:110-129 | The initial state has no messages and no session id, and all topic-scoped fields are cleared. |
| Workflow.EmptyStateIsDefault | project/healthbot/src/workflow.py:117-129 | The initial state is the schema default and is a fixed point of the reset. |
| Workflow.CreateConfig | project/healthbot/src/workflow.py:93-107 | The config carries the given thread id and recursion limit. |
| Workflow.CreateConfigDefaults | project/healthbot/src/workflow.py:93 | The default config has thread "healthbot_session_default" and limit 2000. |
| Workflow.Run | project/healthbot/src/workflow.py:50-84 | A run never stops at END. A run that finishes after a node ends in a state that routes to "end". |
| Workflow.CliConfig | project/healthbot/run_healthbot.py:40 | The runner's config has thread "healthbot_session_cli" and the default recursion limit. |
| Workflow.Session | project/healthbot/run_healthbot.py:40-56 | `app.invoke(initialize_empty_state(), config)` with the runner's config: a session that finishes ends on a choice that routes to "end". |
| Workflow.StartPassesThrough | project/healthbot/src/workflow.py:50 | START hands its state on unchanged, so the run continues at ask_for_topic. |
| Workflow.SessionBeginsWithTopic | project/healthbot/run_healthbot.py:40-56 | A session is the run from ask_for_topic on the empty state, with one step of the recursion limit spent on START. |
| Workflow.SessionWithoutInput | project/healthbot/src/nodes.py:47-54 | With no console input at all, the session stops in ask_for_topic with the empty state. |
| Workflow.NewTopicFinishesRun | project/healthbot/src/nodes.py:502-507 | From `ask_continue`, a new_topic answer finishes the whole run, with the topic cleared and the input resuming after that line. |
| Workflow.LastStepFinishes | project/healthbot/src/workflow.py:76-84 | A step out of `ask_continue` that routes to "end" finishes the run with that step's state. |
| Workflow.GenerateQuizKeepsMaterial | project/healthbot/src/nodes.py:267-274 | Quiz generation keeps the topic, the results and the summary, and counts one more quiz. |
| Workflow.BackToQuizKeepsMaterial | project/healthbot/src/nodes.py:492-501 | If `ask_continue` routes back to generate_quiz, the choice was more_questions and the topic material is untouched. |
| Workflow.QuizLapKeepsMaterial | project/healthbot/src/nodes.py:211-516 | A full quiz lap (generate, present, evaluate, continue with more questions) keeps the topic material and adds exactly one to the quiz count. |

## Left out

- Console output and pacing are not modelled, because they do not affect the state. This covers `display_text_to_user`, its Markdown rendering and `time.sleep`. The greeting and the summary, quiz and results displays are left out for the same reason.
- The language model and the Tavily client are function parameters in an `Env`. What they return is not modelled. This leaves out `initialize_llm`, `llm_config.py` and the `.env` loading (`load_env_from_root`). The key is an `Env` field.
- Prompts are data (`Prompt`) holding the values interpolated into them. Their fixed wording is not modelled, apart from the repeat-quiz note that asks for a different question.
- Exceptions raised by `.content` or by the client on an unexpected shape are not modelled. A model failure is one `LlmFailure`, and a search failure is one `SearchFailed` message.
- LangGraph itself is not modelled: `MemorySaver` checkpointing, the `add_messages` reducer and the compiled graph object. Nodes append to `messages` directly and return the whole state.
- Workflow.Run: the recursion limit is modelled as a budget of node executions. LangGraph counts super-steps, and its exact accounting is not modelled.
- Nodes.AskForTopic: the retry on an invalid topic is a recursive call, which in Python can exhaust the interpreter's stack. The model reads lines until one is valid or the input ends, with no depth limit.
- Running out of console input (EOF) is `InputExhausted`. The Python raises `EOFError` instead.
- A failing node returns no state. In Python the state has already been changed in place when some nodes raise, but the graph discards it either way.
- `run_healthbot.py` is modelled only as `Workflow.Session`. Its credential checks and printing are not modelled, and neither are the notebooks or the `__main__` test blocks. They are drivers, not part of the conversation core.
- `Text.Strip`, `Text.Lower` and `Text.Digits` handle ASCII only. Python's `strip`, `lower` and `isdigit` also cover Unicode whitespace, letters and digits. The Unicode digits that `isdigit` accepts but `int` rejects are therefore not modelled.
- State fields hold `Option` values of fixed types. `quiz_count` is a plain integer (never `None`), and a key missing from the dict is not distinguished from `None`.
- Tools.Entry: a `SearchHit` field holds `None` only when its key is missing, and then gets the "No title", "No URL" or "No content" default. A key that is present but holds `null` is not modelled. For `title` and `url`, Python's `result.get(key, default)` returns `None` in that case, and the entry shows "None". For `content`, slicing `None` raises.
- `Utils.Separator` takes one character. Python's `char * length` also repeats longer strings.
- `Utils.FormatSummaryForDisplay` ignores `width`, exactly as the source does.
- Grading.LineGrade: `int(...)` of a very long digit string is modelled as an unbounded natural number; Python's limit on integer-string conversion length is not modelled.

## Findings

| source | as written | input that shows it | evidently intended | confidence | as-written member | corrected member |
|---|---|---|---|---|---|---|
| project/healthbot/src/nodes.py:493-507 | `ask_continue` stores the choice `new_topic` and then calls `reset_for_new_topic`, which sets `should_continue` back to `None` (state.py:60). `route_user_choice` (workflow.py:67-74) then reads `None` and routes to "end". | A session that reaches `ask_continue` with the typed answer "2" or "new_topic". The run finishes instead of asking for a new topic. | Choosing a new topic returns to `ask_for_topic`, as workflow.py:28-30 and :71-72 document: reset the topic-scoped fields but keep the choice. | not executed | Workflow.NewTopicEndsSession, Workflow.AskContinueNewTopicEnds, Workflow.NewTopicFinishesRun | Nodes.ApplyChoiceIntended, Nodes.AskContinueIntended, Workflow.IntendedChoiceRoutesAsDocumented, Workflow.AskContinueIntendedNewTopic |

The graph run (`Workflow.Run`, `Workflow.Session`) executes the node as
written, because it models the program's behaviour. The corrected node is
proved to route every choice where documented, and to consume input exactly
as the original does.

Two further behaviours of the source are kept as written:

- For the first quiz the message is "Quiz : question", with a stray space before the colon, because the label is empty (nodes.py:273-274). `Nodes.QuestionLabel` states when the label is empty.
- A GRADE line such as "GRADE: 85/100" joins all of its digits, and the grade clamps to 100 (`Grading.FractionGradeClampsTo100`).

=== FILE: errors.dfy ===
/** The exceptions the HealthBot core raises or lets propagate. */
module Errors {

  datatype Failure =
      /** `ValueError` raised by a validator or by a node whose input field is unset. */
    | ValueError(message: string)
      /** `EnvironmentError` raised when the search API key is missing. */
    | EnvironmentError(message: string)
      /** The exception `search_medical_information` raises when the search client fails. */
    | SearchError(message: string)
      /** An exception of the language model, re-raised unchanged by the node that called it. */
    | GenerationError(message: string)
      /** The console has reached the end of its input (Python's `input()` raises EOFError). */
    | InputExhausted
}

=== FILE: grading.dfy ===
/**
  The grade/feedback parser of `evaluate_answer`: the model's reply is
  stripped, split into lines and scanned for a `GRADE:` line and the first
  `EXPLANATION:` line.
*/
module Grading {
  import opened Text

  const GradeMarker: string := "GRADE:"
  const ExplanationMarker: string := "EXPLANATION:"
  /** The grade given when a `GRADE:` line carries no digit. */
  const FallbackGrade: int := 70

  datatype Evaluation = Evaluation(grade: int, feedback: string)

  predicate IsGradeLine(line: string) {
    StartsWith(line, GradeMarker)
  }

  predicate IsExplanationLine(line: string) {
    StartsWith(line, ExplanationMarker)
  }

  /** No line is both: the two markers differ in their first character. */
  lemma MarkersExclusive(line: string)
    ensures !(IsGradeLine(line) && IsExplanationLine(line))
  {
    if IsGradeLine(line) {
      assert line[0] == line[..|GradeMarker|][0] == 'G';
      assert line[0] != ExplanationMarker[0];
    }
  }

  /** `min(100, max(0, g))` */
  function Clamp(g: int): (r: int)
    ensures 0 <= r <= 100
    ensures 0 <= g <= 100 ==> r == g
  {
    if g > 100 then 100 else if g < 0 then 0 else g
  }

  /**
    The grade a `GRADE:` line yields: every marker occurrence is deleted,
    the rest stripped, its digits concatenated and read as a number, clamped;
    with no digit, `int('')` raises and the fallback grade is used.
  */
  function LineGrade(line: string): (g: int)
    ensures 0 <= g <= 100
  {
    var gradeText := Strip(RemoveAll(line, GradeMarker));
    var digits := Digits(gradeText);
    if digits == [] then FallbackGrade else Clamp(DecimalValue(digits))
  }

  /** A line's grade depends only on the digits it contains, in order. */
  lemma LineGradeFromDigits(line: string)
    ensures LineGrade(line) == if Digits(line) == [] then FallbackGrade else Clamp(DecimalValue(Digits(line)))
  {
    assert Digits(GradeMarker) == [];
    DigitsRemoveAll(line, GradeMarker);
    DigitsStrip(RemoveAll(line, GradeMarker));
  }

  /**
    The feedback taken from the explanation line at index `i`: that line with
    the marker deleted and stripped, then a newline and the following lines
    joined verbatim, when there are any.
  */
  function ExplanationFeedback(lines: seq<string>, i: nat): (r: string)
    requires i < |lines|
    ensures StartsWith(r, Strip(RemoveAll(lines[i], ExplanationMarker)))
    ensures |r| == |Strip(RemoveAll(lines[i], ExplanationMarker))| <==> i + 1 == |lines|
  {
    var head := Strip(RemoveAll(lines[i], ExplanationMarker));
    if i + 1 < |lines| then head + "\n" + JoinLines(lines[i + 1..]) else head
  }

  /** Where the loop ended: the grade it holds and the index it stopped at. */
  datatype ScanEnd = ScanEnd(grade: int, stop: nat)

  /** `f` only ever reads grades within [0, 100]. */
  ghost predicate ReadsPercent(f: string -> int) {
    forall line :: 0 <= f(line) <= 100
  }

  /**
    The `for i, line in enumerate(lines)` loop from index `i`, with the grade
    so far: a `GRADE:` line replaces the grade by what `gradeOf` reads from
    it, and the first `EXPLANATION:` line ends the loop. The reading of a
    grade line is a parameter, so that the loop is reasoned about apart from it.
  */
  function Scan(lines: seq<string>, i: nat, grade: int, gradeOf: string -> int): (r: ScanEnd)
    requires i <= |lines|
    ensures i <= r.stop <= |lines|
    ensures 0 <= grade <= 100 && ReadsPercent(gradeOf) ==> 0 <= r.grade <= 100
    decreases |lines| - i
  {
    if i == |lines| then ScanEnd(grade, i)
    else if IsGradeLine(lines[i]) then Scan(lines, i + 1, gradeOf(lines[i]), gradeOf)
    else if IsExplanationLine(lines[i]) then ScanEnd(grade, i)
    else Scan(lines, i + 1, grade, gradeOf)
  }

  /** The lines the parser scans: the reply stripped, then split at each newline. */
  function ResponseLines(response: string): seq<string> {
    SplitLines(Strip(response))
  }

  /**
    Parse a grading reply: the grade is always within [0, 100]; the feedback
    is `""` unless the loop stopped at an explanation line.
  */
  function ParseGrading(response: string): (r: Evaluation)
    ensures 0 <= r.grade <= 100
  {
    var lines := ResponseLines(response);
    var end := Scan(lines, 0, 0, LineGrade);
    Evaluation(end.grade, if end.stop < |lines| then ExplanationFeedback(lines, end.stop) else "")
  }

  // ---------------------------------------------------------------------------
  // Reference description of what the scan computes
  // ---------------------------------------------------------------------------

  /** `bound` is where the scan stops: the first explanation line, or the end. */
  predicate ScanBound(lines: seq<string>, bound: nat) {
    && bound <= |lines|
    && (forall m | 0 <= m < bound :: !IsExplanationLine(lines[m]))
    && (bound < |lines| ==> IsExplanationLine(lines[bound]))
  }

  /** Line `j` is the last `GRADE:` line before `bound`. */
  predicate LastGradeLineBefore(lines: seq<string>, j: nat, bound: nat) {
    && j < bound <= |lines|
    && IsGradeLine(lines[j])
    && (forall m | j < m < bound :: !IsGradeLine(lines[m]))
  }

  predicate NoGradeLineBefore(lines: seq<string>, bound: nat)
    requires bound <= |lines|
  {
    forall m | 0 <= m < bound :: !IsGradeLine(lines[m])
  }

  /** Every list of lines has a stopping point. */
  lemma {:induction false} ScanBoundExists(lines: seq<string>) returns (bound: nat)
    ensures ScanBound(lines, bound)
  {
    bound := 0;
    while bound < |lines| && !IsExplanationLine(lines[bound])
      invariant bound <= |lines|
      invariant forall m | 0 <= m < bound :: !IsExplanationLine(lines[m])
      decreases |lines| - bound
    {
      bound := bound + 1;
    }
  }

  /** There is only one stopping point. */
  lemma ScanBoundUnique(lines: seq<string>, b1: nat, b2: nat)
    requires ScanBound(lines, b1) && ScanBound(lines, b2)
    ensures b1 == b2
  {
  }

  /** The loop stops exactly at the stopping point, whatever it reads from grade lines. */
  lemma {:induction false} ScanStopsAtBound(lines: seq<string>, i: nat, g: int, f: string -> int, bound: nat)
    requires i <= bound && ScanBound(lines, bound)
    ensures Scan(lines, i, g, f).stop == bound
    decreases bound - i
  {
    if i < bound {
      ScanStopsAtBound(lines, i + 1, if IsGradeLine(lines[i]) then f(lines[i]) else g, f, bound);
    } else if bound < |lines| {
      MarkersExclusive(lines[bound]);
    }
  }

  /** With no grade line before the stopping point, the grade is untouched. */
  lemma {:induction false} ScanNoGrade(lines: seq<string>, i: nat, g: int, f: string -> int, bound: nat)
    requires i <= bound && ScanBound(lines, bound)
    requires forall m | i <= m < bound :: !IsGradeLine(lines[m])
    ensures Scan(lines, i, g, f).grade == g
    decreases bound - i
  {
    if i < bound {
      ScanNoGrade(lines, i + 1, g, f, bound);
    } else if bound < |lines| {
      MarkersExclusive(lines[bound]);
    }
  }

  /** Otherwise the grade is what the last grade line before the stopping point reads. */
  lemma {:induction false} ScanLastGrade(lines: seq<string>, i: nat, g: int, f: string -> int, bound: nat, j: nat)
    requires i <= j && ScanBound(lines, bound)
    requires LastGradeLineBefore(lines, j, bound)
    ensures Scan(lines, i, g, f).grade == f(lines[j])
    decreases bound - i
  {
    if i == j {
      ScanNoGrade(lines, i + 1, f(lines[i]), f, bound);
    } else {
      ScanLastGrade(lines, i + 1, if IsGradeLine(lines[i]) then f(lines[i]) else g, f, bound, j);
    }
  }

  /**
    The parse, described without the loop: the grade is that of the last
    `GRADE:` line before the first `EXPLANATION:` line (0 when there is none;
    later lines are never read for a grade); the feedback comes from the
    first `EXPLANATION:` line, and is `""` when there is none.
  */
  lemma ParseGradingSpec(response: string, bound: nat)
    requires ScanBound(ResponseLines(response), bound)
    ensures NoGradeLineBefore(ResponseLines(response), bound) ==> ParseGrading(response).grade == 0
    ensures forall j: nat | LastGradeLineBefore(ResponseLines(response), j, bound) ::
              ParseGrading(response).grade == LineGrade(ResponseLines(response)[j])
    ensures ParseGrading(response).feedback
         == if bound < |ResponseLines(response)| then ExplanationFeedback(ResponseLines(response), bound) else ""
  {
    var lines := ResponseLines(response);
    ScanStopsAtBound(lines, 0, 0, LineGrade, bound);
    if NoGradeLineBefore(lines, bound) {
      ScanNoGrade(lines, 0, 0, LineGrade, bound);
    }
    forall j: nat | LastGradeLineBefore(lines, j, bound)
      ensures ParseGrading(response).grade == LineGrade(lines[j])
    {
      ScanLastGrade(lines, 0, 0, LineGrade, bound, j);
    }
  }

  lemma {:induction false} JoinLinesSplit(lines: seq<string>, k: nat)
    requires k + 1 < |lines|
    ensures JoinLines(lines) == JoinLines(lines[..k + 1]) + "\n" + JoinLines(lines[k + 1..])
  {
    if k > 0 {
      JoinLinesSplit(lines[1..], k - 1);
      assert lines[1..][..k] == lines[..k + 1][1..];
      assert lines[1..][k..] == lines[k + 1..];
    } else {
      assert lines[..1] == [lines[0]];
    }
  }

  /**
    The lines after the explanation line reach the feedback verbatim: they
    are exactly the stripped reply after the newline that ends that line.
  */
  lemma FeedbackTailVerbatim(response: string, bound: nat)
    requires ScanBound(ResponseLines(response), bound)
    requires bound + 1 < |ResponseLines(response)|
    ensures var lines := ResponseLines(response);
            var head := Strip(RemoveAll(lines[bound], ExplanationMarker));
            var tail := JoinLines(lines[bound + 1..]);
            && ParseGrading(response).feedback == head + "\n" + tail
            && Strip(response) == JoinLines(lines[..bound + 1]) + "\n" + tail
  {
    var lines := ResponseLines(response);
    ParseGradingSpec(response, bound);
    JoinSplit(Strip(response));
    JoinLinesSplit(lines, bound);
  }

  // ---------------------------------------------------------------------------
  // Round trip with the format the grading prompt asks for
  // ---------------------------------------------------------------------------

  /** An explanation that fits on the `EXPLANATION:` line and survives stripping. */
  predicate PlainExplanation(e: string) {
    && e != [] && Trimmed(e) && NoNewline(e) && Absent(e, ExplanationMarker)
  }

  /** A reply in the two-line shape the grading prompt asks for, with any grade text. */
  function TwoLineReply(gradeText: string, explanation: string): string {
    GradeMarker + " " + gradeText + "\n" + ExplanationMarker + " " + explanation
  }

  /** The reply the grading prompt asks the model for, carrying a numeric grade. */
  function WellFormedReply(grade: nat, explanation: string): string {
    TwoLineReply(NatToString(grade), explanation)
  }

  lemma ReplyLines(gradeText: string, explanation: string)
    requires NoNewline(gradeText) && PlainExplanation(explanation)
    ensures ResponseLines(TwoLineReply(gradeText, explanation))
         == [GradeMarker + " " + gradeText, ExplanationMarker + " " + explanation]
  {
    var gl := GradeMarker + " " + gradeText;
    var el := ExplanationMarker + " " + explanation;
    var reply := TwoLineReply(gradeText, explanation);
    assert reply == gl + "\n" + el;
    assert reply[0] == 'G';
    assert reply[|reply| - 1] == explanation[|explanation| - 1];
    StripTrimmed(reply);
    assert NoNewline(gl);
    assert JoinLines([gl, el]) == reply;
    SplitJoin([gl, el]);
  }

  lemma NumeralLineHasNoNewline(grade: nat)
    ensures NoNewline(NatToString(grade))
  {
    var d := NatToString(grade);
    assert forall k | 0 <= k < |d| :: d[k] != '\n';
  }

  lemma GradeLineDigits(grade: nat)
    ensures Digits(GradeMarker + " " + NatToString(grade)) == NatToString(grade)
  {
    DigitsAppend(GradeMarker + " ", NatToString(grade));
    DigitsOfDigits(NatToString(grade));
    DigitFree(GradeMarker + " ");
  }

  lemma GradeLineValue(grade: nat)
    requires grade <= 100
    ensures IsGradeLine(GradeMarker + " " + NatToString(grade))
    ensures LineGrade(GradeMarker + " " + NatToString(grade)) == grade
  {
    var gl := GradeMarker + " " + NatToString(grade);
    assert gl[..|GradeMarker|] == GradeMarker;
    GradeLineDigits(grade);
    LineGradeFromDigits(gl);
  }

  lemma ExplanationLineValue(explanation: string)
    requires PlainExplanation(explanation)
    ensures IsExplanationLine(ExplanationMarker + " " + explanation)
    ensures Strip(RemoveAll(ExplanationMarker + " " + explanation, ExplanationMarker)) == explanation
  {
    var el := ExplanationMarker + " " + explanation;
    var rest := " " + explanation;
    assert el[..|ExplanationMarker|] == ExplanationMarker;
    assert el[|ExplanationMarker|..] == rest;
    assert Absent(rest, ExplanationMarker) by {
      forall k: nat | k <= |rest|
        ensures !OccursAt(rest, ExplanationMarker, k)
      {
        if k == 0 {
          assert rest[0] != ExplanationMarker[0];
        } else if k + |ExplanationMarker| <= |rest| {
          assert rest[k..k + |ExplanationMarker|] == explanation[k - 1..k - 1 + |ExplanationMarker|];
          assert !OccursAt(explanation, ExplanationMarker, k - 1);
        }
      }
    }
    RemoveAbsent(rest, ExplanationMarker);
    assert RemoveAll(el, ExplanationMarker) == rest;
    StripSpaceBefore(explanation);
  }

  /** A reply made of one grade line followed by one explanation line. */
  lemma TwoLineParse(reply: string, gl: string, el: string)
    requires ResponseLines(reply) == [gl, el]
    requires IsGradeLine(gl) && IsExplanationLine(el)
    ensures ParseGrading(reply) == Evaluation(LineGrade(gl), Strip(RemoveAll(el, ExplanationMarker)))
  {
    var lines := ResponseLines(reply);
    MarkersExclusive(gl);
    assert ScanBound(lines, 1);
    assert LastGradeLineBefore(lines, 0, 1);
    ParseGradingSpec(reply, 1);
    LastLineFeedback(lines, 1);
  }

  /**
    A two-line reply is parsed to the grade of its first line and to its
    explanation exactly.
  */
  lemma TwoLineReplyParse(gradeText: string, explanation: string)
    requires NoNewline(gradeText) && PlainExplanation(explanation)
    ensures ParseGrading(TwoLineReply(gradeText, explanation))
         == Evaluation(LineGrade(GradeMarker + " " + gradeText), explanation)
  {
    var gl := GradeMarker + " " + gradeText;
    assert gl[..|GradeMarker|] == GradeMarker;
    ReplyLines(gradeText, explanation);
    ExplanationLineValue(explanation);
    TwoLineParse(TwoLineReply(gradeText, explanation), gl, ExplanationMarker + " " + explanation);
  }

  /** A reply in the requested format is parsed back to exactly its grade and explanation. */
  lemma WellFormedReplyRoundTrip(grade: nat, explanation: string)
    requires grade <= 100 && PlainExplanation(explanation)
    ensures ParseGrading(WellFormedReply(grade, explanation)) == Evaluation(grade, explanation)
  {
    NumeralLineHasNoNewline(grade);
    GradeLineValue(grade);
    TwoLineReplyParse(NatToString(grade), explanation);
  }

  /** A grade text without any digit falls back to 70, and the explanation is still read. */
  lemma DigitlessGradeFallsBack(gradeText: string, explanation: string)
    requires NoNewline(gradeText) && Digits(gradeText) == [] && PlainExplanation(explanation)
    ensures ParseGrading(TwoLineReply(gradeText, explanation)) == Evaluation(FallbackGrade, explanation)
  {
    DigitlessGradeLine(gradeText);
    TwoLineReplyParse(gradeText, explanation);
  }

  lemma DigitlessGradeLine(gradeText: string)
    requires Digits(gradeText) == []
    ensures LineGrade(GradeMarker + " " + gradeText) == FallbackGrade
  {
    DigitFree(GradeMarker + " ");
    DigitsAppend(GradeMarker + " ", gradeText);
    LineGradeFromDigits(GradeMarker + " " + gradeText);
  }

  /** On the last line the feedback is just that line's remainder. */
  lemma LastLineFeedback(lines: seq<string>, i: nat)
    requires i + 1 == |lines|
    ensures ExplanationFeedback(lines, i) == Strip(RemoveAll(lines[i], ExplanationMarker))
  {
  }

  // ---------------------------------------------------------------------------
  // Worked examples
  // ---------------------------------------------------------------------------

  lemma ExampleGoodJob()
    ensures ParseGrading("GRADE: 85\nEXPLANATION: Good job.") == Evaluation(85, "Good job.")
  {
    GoodJobIsPlain();
    GoodJobReply();
    WellFormedReplyRoundTrip(85, "Good job.");
  }

  lemma GoodJobIsPlain()
    ensures PlainExplanation("Good job.")
  {
    var e := "Good job.";
    assert |e| < |ExplanationMarker|;
  }

  lemma GoodJobReply()
    ensures WellFormedReply(85, "Good job.") == "GRADE: 85\nEXPLANATION: Good job."
  {
    assert NatToString(8) == [DigitChar(8)] == "8";
    assert NatToString(85) == NatToString(8) + [DigitChar(5)] == "85";
  }

  /** `int` of a concatenation is at least `int` of its last part. */
  lemma {:induction false} DecimalValueOfSuffix(x: string, y: string)
    requires AllDigits(x) && AllDigits(y)
    ensures DecimalValue(x + y) >= DecimalValue(y)
    decreases |y|
  {
    if y != [] {
      var xy := x + y;
      assert xy[..|xy| - 1] == x + y[..|y| - 1];
      assert xy[|xy| - 1] == y[|y| - 1];
      DecimalValueOfSuffix(x, y[..|y| - 1]);
    }
  }

  /**
    Every digit of the grade line is concatenated before clamping, so a line
    like `GRADE: 85/100` yields 100, not 85.
  */
  lemma FractionGradeClampsTo100(numerator: nat, denominator: nat)
    requires denominator >= 100
    ensures LineGrade(GradeMarker + " " + NatToString(numerator) + "/" + NatToString(denominator)) == 100
  {
    var n := NatToString(numerator);
    var d := NatToString(denominator);
    var line := GradeMarker + " " + n + "/" + d;
    FractionDigits(n, d);
    DecimalValueOfSuffix(n, d);
    LineGradeFromDigits(line);
  }

  /** The digits of `GRADE: n/d` are those of `n` followed by those of `d`. */
  lemma FractionDigits(n: string, d: string)
    requires AllDigits(n) && AllDigits(d)
    ensures Digits(GradeMarker + " " + n + "/" + d) == n + d
  {
    assert GradeMarker + " " + n + "/" + d == (GradeMarker + " ") + n + ("/" + d);
    DigitFree(GradeMarker + " ");
    DigitFree("/");
    DigitsAppend((GradeMarker + " ") + n, "/" + d);
    DigitsAppend(GradeMarker + " ", n);
    DigitsAppend("/", d);
    DigitsOfDigits(n);
    DigitsOfDigits(d);
  }
}

=== FILE: nodes.dfy ===
/**
  The eight conversation nodes. Each is a pure function of the state and of
  whatever it consults: the console is a sequence of raw input lines (a node
  that reads returns the lines it left unread), and the language model and
  the search client are functions carried in an `Env`. A raised exception is
  a `Failure`; the graph run stops there and no state is written.
*/
module Nodes {
  import opened Wrappers
  import opened Errors
  import opened Text
  import opened HealthState
  import Utils
  import Tools
  import Grading

  /** What a node sends to the language model: the values its prompt embeds. */
  datatype Prompt =
    | SummarizationPrompt(topic: Option<string>, searchResults: string)
    | QuizPrompt(topic: Option<string>, summary: string, additionalInstruction: string)
    | GradingPrompt(topic: Option<string>, summary: string, question: string, answer: string)

  /** The model's reply: its `content`, or the exception `invoke` raised. */
  datatype LlmReply = Completion(content: string) | LlmFailure(message: string)

  /** The outside world: the language model, the search client and the Tavily key. */
  datatype Env = Env(llm: Prompt -> LlmReply,
                     search: (string, int) -> Tools.SearchReply,
                     tavilyKey: Option<string>)

  /** The outcome of a node that reads the console: its state and the unread lines. */
  datatype Step = Step(state: State, rest: seq<string>)

  /** `s` with `added` appended to its message history and nothing else changed. */
  function Log(s: State, added: seq<Message>): State {
    s.(messages := s.messages + added)
  }

  // The errors the nodes raise when a field they read is unset or empty.
  const NoTopicError: Failure := ValueError("Health topic not set before search")
  const NoResultsError: Failure := ValueError("No search results to summarize")
  const NoSummaryError: Failure := ValueError("No summary to present")
  const NoQuizSourceError: Failure := ValueError("No summary available for quiz generation")
  const NoQuestionError: Failure := ValueError("No quiz question available")
  const MissingFieldsError: Failure := ValueError("Missing required fields for evaluation")

  // The messages the nodes log.
  const SummaryDoneMessage: Message := Ai("Summary created successfully.")
  const ReadyMessages: seq<Message> := [
    Human("I've finished reading and I'm ready for the quiz"),
    Ai("Great! Let me create a quiz question to check your understanding.")]
  const MoreQuestionsMessages: seq<Message> := [
    Human("I'd like another quiz question on this topic"),
    Ai("Great! Let me create another quiz question about this topic...")]
  const NewTopicMessage: Message := Human("I'd like to learn about another topic")
  const ExitMessage: Message := Human("I'm done learning. Thank you!")

  function SearchDoneMessage(topic: string): Message {
    Ai("Found information about " + topic + ". Now creating a summary...")
  }

  // ---------------------------------------------------------------------------
  // Reading the console until a line is accepted
  // ---------------------------------------------------------------------------

  /** Line `k` is the first line of `inputs` that `accept` takes. */
  predicate FirstAccepted(inputs: seq<string>, accept: string -> bool, k: nat) {
    && k < |inputs|
    && accept(inputs[k])
    && forall m | 0 <= m < k :: !accept(inputs[m])
  }

  /**
    Prompt again until a line is accepted: the index of the line that ends
    the loop, or `None` when the input runs out first.
  */
  function ReadUntil(inputs: seq<string>, accept: string -> bool): (r: Option<nat>)
    ensures r.Some? ==> FirstAccepted(inputs, accept, r.value)
    ensures r.None? ==> forall m | 0 <= m < |inputs| :: !accept(inputs[m])
  {
    if inputs == [] then None
    else if accept(inputs[0]) then Some(0)
    else match ReadUntil(inputs[1..], accept)
      case None => None
      case Some(k) => Some(k + 1)
  }

  /** The first accepted line is the only line that can end the loop. */
  lemma FirstAcceptedUnique(inputs: seq<string>, accept: string -> bool, k1: nat, k2: nat)
    requires FirstAccepted(inputs, accept, k1) && FirstAccepted(inputs, accept, k2)
    ensures k1 == k2
  {
  }

  /** The loop ends exactly when some line is accepted, and then at the first one. */
  lemma ReadUntilFindsFirst(inputs: seq<string>, accept: string -> bool, k: nat)
    requires FirstAccepted(inputs, accept, k)
    ensures ReadUntil(inputs, accept) == Some(k)
  {
    var r := ReadUntil(inputs, accept);
    assert r.Some?;
    FirstAcceptedUnique(inputs, accept, r.value, k);
  }

  // ---------------------------------------------------------------------------
  // Node 1: ask_for_topic
  // ---------------------------------------------------------------------------

  /** A line that passes both validators once `ask_user_for_input` has stripped it. */
  predicate TopicAccepted(line: string) {
    var topic := Utils.AskUserForInput(line);
    Utils.ValidateNonEmptyInput(topic, "Health topic").Pass? && Utils.ValidateTopicLength(topic).Pass?
  }

  /** A line is accepted exactly when its stripped text has between 3 and 500 characters. */
  lemma TopicAcceptedIff(line: string)
    ensures TopicAccepted(line)
        <==> Utils.DefaultMinTopicLength <= |Strip(line)| <= Utils.DefaultMaxTopicLength
  {
  }

  /** The state once topic `t` is accepted: the topic is set and one exchange is logged. */
  function WithTopic(s: State, t: string): State {
    Log(s.(healthTopic := Some(t)),
        [Human("I want to learn about: " + t), Ai("Great! Let me find information about " + t + " for you...")])
  }

  /**
    `ask_for_topic`: read a line, and on a validation error start the node
    again on the next line. The first line that passes both validators
    becomes the topic; earlier lines leave no trace in the state.
  */
  function AskForTopic(s: State, inputs: seq<string>): (r: Result<Step, Failure>)
    ensures r.Failure? ==> r.error == InputExhausted
    ensures r.Success? ==>
              var t := r.value.state;
              && |r.value.rest| < |inputs| && r.value.rest == inputs[|inputs| - |r.value.rest|..]
              && Truthy(t.healthTopic)
              && Utils.DefaultMinTopicLength <= |t.healthTopic.value| <= Utils.DefaultMaxTopicLength
              && |t.messages| == |s.messages| + 2
              && t.messages[..|s.messages|] == s.messages
              && t.messages[|s.messages|].Human? && t.messages[|s.messages| + 1].Ai?
              && t.(healthTopic := s.healthTopic, messages := s.messages) == s
  {
    match ReadUntil(inputs, TopicAccepted)
    case None => Failure(InputExhausted)
    case Some(k) =>
      TopicAcceptedIff(inputs[k]);
      Success(Step(WithTopic(s, Utils.AskUserForInput(inputs[k])), inputs[k + 1..]))
  }

  /**
    However many lines are rejected first, the topic is the first line that
    passes both validators, and reading stops right after it.
  */
  lemma AskForTopicTakesFirstValid(s: State, inputs: seq<string>, k: nat)
    requires FirstAccepted(inputs, TopicAccepted, k)
    ensures AskForTopic(s, inputs) == Success(Step(WithTopic(s, Strip(inputs[k])), inputs[k + 1..]))
  {
    ReadUntilFindsFirst(inputs, TopicAccepted, k);
  }

  /** When no line passes both validators, the node runs out of input. */
  lemma AskForTopicExhausted(s: State, inputs: seq<string>)
    requires forall m | 0 <= m < |inputs| :: !TopicAccepted(inputs[m])
    ensures AskForTopic(s, inputs) == Failure(InputExhausted)
  {
  }

  // ---------------------------------------------------------------------------
  // Node 2: search_medical_info
  // ---------------------------------------------------------------------------

  /**
    `search_medical_info`: an unset or empty topic raises before any search;
    a search failure is re-raised; otherwise the formatted results are
    stored and one AI message is appended.
  */
  function SearchMedicalInfo(s: State, env: Env): (r: Result<State, Failure>)
    ensures !Truthy(s.healthTopic) ==> r == Failure(NoTopicError)
    ensures Truthy(s.healthTopic) ==>
              match Tools.SearchMedicalInformation(s.healthTopic.value, env.tavilyKey, env.search)
              case Failure(e) => r == Failure(e)
              case Success(text) =>
                r == Success(Log(s.(searchResults := Some(text)),
                                 [SearchDoneMessage(s.healthTopic.value)]))
    ensures r.Success? ==> Truthy(r.value.searchResults)
  {
    if !Truthy(s.healthTopic) then Failure(NoTopicError)
    else
      var topic := s.healthTopic.value;
      match Tools.SearchMedicalInformation(topic, env.tavilyKey, env.search)
      case Failure(e) => Failure(e)
      case Success(text) =>
        Success(Log(s.(searchResults := Some(text)),
                    [SearchDoneMessage(topic)]))
  }

  /** Without a usable topic the search client is never consulted. */
  lemma SearchNeedsTopic(s: State, env1: Env, env2: Env)
    requires !Truthy(s.healthTopic)
    ensures SearchMedicalInfo(s, env1) == SearchMedicalInfo(s, env2)
    ensures SearchMedicalInfo(s, env1).Failure? && SearchMedicalInfo(s, env1).error.ValueError?
  {
  }

  // ---------------------------------------------------------------------------
  // Node 3: summarize_results
  // ---------------------------------------------------------------------------

  /**
    `summarize_results`: unset or empty search results raise before the
    model is asked; the reply's content is stored unstripped.
  */
  function SummarizeResults(s: State, env: Env): (r: Result<State, Failure>)
    ensures !Truthy(s.searchResults) ==> r == Failure(NoResultsError)
    ensures Truthy(s.searchResults) ==>
              match env.llm(SummarizationPrompt(s.healthTopic, s.searchResults.value))
              case LlmFailure(m) => r == Failure(GenerationError(m))
              case Completion(c) =>
                r == Success(Log(s.(summary := Some(c)), [SummaryDoneMessage]))
  {
    if !Truthy(s.searchResults) then Failure(NoResultsError)
    else
      match env.llm(SummarizationPrompt(s.healthTopic, s.searchResults.value))
      case LlmFailure(m) => Failure(GenerationError(m))
      case Completion(c) => Success(Log(s.(summary := Some(c)), [SummaryDoneMessage]))
  }

  /** A successful search always leaves something for the summarizer to read. */
  lemma SearchFeedsSummarizer(s: State, env: Env)
    requires SearchMedicalInfo(s, env).Success?
    ensures SummarizeResults(SearchMedicalInfo(s, env).value, env) != Failure(NoResultsError)
  {
  }

  // ---------------------------------------------------------------------------
  // Node 4: present_summary
  // ---------------------------------------------------------------------------

  /** The line that ends the reading gate: `'ready'` in any letter case, once stripped. */
  predicate IsReady(line: string) {
    Lower(Utils.AskUserForInput(line)) == "ready"
  }

  /** Only a line of exactly five characters between its whitespace can open the gate. */
  lemma ReadyLength(line: string)
    requires IsReady(line)
    ensures |Strip(line)| == 5 && Trimmed(Strip(line))
  {
  }

  /**
    `present_summary`: an unset or empty summary raises before anything is
    read; otherwise lines are read until one says `ready`, and two messages
    are appended.
  */
  function PresentSummary(s: State, inputs: seq<string>): (r: Result<Step, Failure>)
    ensures !Truthy(s.summary) ==> r == Failure(NoSummaryError)
    ensures Truthy(s.summary) && r.Failure? ==> r.error == InputExhausted
    ensures r.Success? ==>
              && |r.value.rest| < |inputs| && r.value.rest == inputs[|inputs| - |r.value.rest|..]
              && r.value.state == Log(s, ReadyMessages)
  {
    if !Truthy(s.summary) then Failure(NoSummaryError)
    else
      match ReadUntil(inputs, IsReady)
      case None => Failure(InputExhausted)
      case Some(k) =>
        Success(Step(Log(s, ReadyMessages),
                     inputs[k + 1..]))
  }

  /** Reading stops right after the first line that says `ready`, and only there. */
  lemma PresentSummaryStopsAtReady(s: State, inputs: seq<string>, k: nat)
    requires Truthy(s.summary) && FirstAccepted(inputs, IsReady, k)
    ensures PresentSummary(s, inputs).Success?
    ensures PresentSummary(s, inputs).value.rest == inputs[k + 1..]
  {
    ReadUntilFindsFirst(inputs, IsReady, k);
  }

  /** Without a `ready` line the gate never opens. */
  lemma PresentSummaryWaits(s: State, inputs: seq<string>)
    requires Truthy(s.summary)
    requires forall m | 0 <= m < |inputs| :: !IsReady(inputs[m])
    ensures PresentSummary(s, inputs) == Failure(InputExhausted)
  {
  }

  // ---------------------------------------------------------------------------
  // Node 5: generate_quiz
  // ---------------------------------------------------------------------------

  const DifferentQuestionLead: string := "\n\nNote: This is quiz question #"
  const DifferentQuestionRequest: string :=
    " on this topic. Please generate a DIFFERENT question that tests a different aspect or concept from the summary than previous questions."

  /** The note asking for a different question, added to the prompt from the second quiz on. */
  function AdditionalInstruction(count: int): (note: string)
    ensures note != [] <==> count > 1
  {
    if count > 1 then DifferentQuestionLead + IntToString(count) + DifferentQuestionRequest else ""
  }

  /** The label put before a quiz question in the log: empty for the first quiz. */
  function QuestionLabel(count: int): (tag: string)
    ensures tag != [] <==> count > 1
  {
    if count > 1 then "(Question " + IntToString(count) + ")" else ""
  }

  /**
    `generate_quiz`: the new count is the old one plus one; an unset or
    empty summary raises before the model is asked, and nothing is stored;
    otherwise the stripped reply becomes the question.
  */
  function GenerateQuiz(s: State, env: Env): (r: Result<State, Failure>)
    ensures !Truthy(s.summary) ==> r == Failure(NoQuizSourceError)
    ensures Truthy(s.summary) ==>
              match env.llm(QuizPrompt(s.healthTopic, s.summary.value, AdditionalInstruction(s.quizCount + 1)))
              case LlmFailure(m) => r == Failure(GenerationError(m))
              case Completion(c) =>
                && r.Success?
                && r.value.quizCount == s.quizCount + 1
                && r.value.quizQuestion == Some(Strip(c))
                && r.value == Log(s.(quizQuestion := Some(Strip(c)), quizCount := s.quizCount + 1),
                                  [Ai("Quiz " + QuestionLabel(s.quizCount + 1) + ": " + Strip(c))])
  {
    var count := s.quizCount + 1;
    if !Truthy(s.summary) then Failure(NoQuizSourceError)
    else
      match env.llm(QuizPrompt(s.healthTopic, s.summary.value, AdditionalInstruction(count)))
      case LlmFailure(m) => Failure(GenerationError(m))
      case Completion(c) =>
        var question := Strip(c);
        Success(Log(s.(quizQuestion := Some(question), quizCount := count),
                    [Ai("Quiz " + QuestionLabel(count) + ": " + question)]))
  }

  // ---------------------------------------------------------------------------
  // Node 6: present_quiz
  // ---------------------------------------------------------------------------

  /**
    `present_quiz`: an unset or empty question raises; otherwise one line is
    read, with no retry: an empty answer raises and nothing is stored.
  */
  function PresentQuiz(s: State, inputs: seq<string>): (r: Result<Step, Failure>)
    ensures !Truthy(s.quizQuestion) ==> r == Failure(NoQuestionError)
    ensures Truthy(s.quizQuestion) && inputs == [] ==> r == Failure(InputExhausted)
    ensures Truthy(s.quizQuestion) && inputs != [] ==>
              if Strip(inputs[0]) == [] then r == Failure(Utils.EmptyInputError("Quiz answer"))
              else r == Success(Step(Log(s.(patientAnswer := Some(Strip(inputs[0]))),
                                         [Human("My answer: " + Strip(inputs[0]))]),
                                     inputs[1..]))
  {
    if !Truthy(s.quizQuestion) then Failure(NoQuestionError)
    else if inputs == [] then Failure(InputExhausted)
    else
      var answer := Utils.AskUserForInput(inputs[0]);
      match Utils.ValidateNonEmptyInput(answer, "Quiz answer")
      case Fail(e) =>
        Failure(e)
      case Pass =>
        Success(Step(Log(s.(patientAnswer := Some(answer)), [Human("My answer: " + answer)]), inputs[1..]))
  }

  /** A stored answer is never empty and never has edge whitespace. */
  lemma PresentQuizAnswer(s: State, inputs: seq<string>)
    requires PresentQuiz(s, inputs).Success?
    ensures var a := PresentQuiz(s, inputs).value.state.patientAnswer;
            Truthy(a) && Trimmed(a.value)
    ensures |PresentQuiz(s, inputs).value.rest| == |inputs| - 1
  {
  }

  // ---------------------------------------------------------------------------
  // Node 7: evaluate_answer
  // ---------------------------------------------------------------------------

  /** The three fields grading needs are all set and non-empty. */
  predicate ReadyForGrading(s: State) {
    Truthy(s.patientAnswer) && Truthy(s.quizQuestion) && Truthy(s.summary)
  }

  /** The AI message that reports a grade and its feedback. */
  function GradeMessage(e: Grading.Evaluation): Message {
    Ai("Grade: " + IntToString(e.grade) + "/100\n\n" + e.feedback)
  }

  /**
    `evaluate_answer`: a missing answer, question or summary raises;
    otherwise the model's reply is parsed into a grade and feedback, which
    are stored and reported in one AI message.
  */
  function EvaluateAnswer(s: State, env: Env): (r: Result<State, Failure>)
    ensures !ReadyForGrading(s) ==> r == Failure(MissingFieldsError)
    ensures ReadyForGrading(s) ==>
              match env.llm(GradingPrompt(s.healthTopic, s.summary.value, s.quizQuestion.value, s.patientAnswer.value))
              case LlmFailure(m) => r == Failure(GenerationError(m))
              case Completion(c) =>
                var e := Grading.ParseGrading(c);
                r == Success(Log(s.(grade := Some(e.grade), feedback := Some(e.feedback)), [GradeMessage(e)]))
    ensures r.Success? ==> r.value.grade.Some? && 0 <= r.value.grade.value <= 100
  {
    if !ReadyForGrading(s) then Failure(MissingFieldsError)
    else
      match env.llm(GradingPrompt(s.healthTopic, s.summary.value, s.quizQuestion.value, s.patientAnswer.value))
      case LlmFailure(m) => Failure(GenerationError(m))
      case Completion(c) =>
        var e := Grading.ParseGrading(c);
        Success(Log(s.(grade := Some(e.grade), feedback := Some(e.feedback)), [GradeMessage(e)]))
  }

  /** A reply in the format the grading prompt asks for is stored exactly. */
  lemma EvaluateWellFormedReply(s: State, env: Env, grade: nat, explanation: string)
    requires ReadyForGrading(s) && grade <= 100 && Grading.PlainExplanation(explanation)
    requires env.llm(GradingPrompt(s.healthTopic, s.summary.value, s.quizQuestion.value, s.patientAnswer.value))
          == Completion(Grading.WellFormedReply(grade, explanation))
    ensures EvaluateAnswer(s, env).Success?
    ensures EvaluateAnswer(s, env).value.grade == Some(grade)
    ensures EvaluateAnswer(s, env).value.feedback == Some(explanation)
  {
    Grading.WellFormedReplyRoundTrip(grade, explanation);
  }

  // ---------------------------------------------------------------------------
  // Node 8: ask_continue
  // ---------------------------------------------------------------------------

  const MoreQuestions: string := "more_questions"
  const NewTopic: string := "new_topic"
  const Exit: string := "exit"

  /** The accepted answers to the continuation prompt and the choice each one selects. */
  const ValidResponses: map<string, string> := map[
    "1" := MoreQuestions, "2" := NewTopic, "3" := Exit,
    MoreQuestions := MoreQuestions, NewTopic := NewTopic, Exit := Exit]

  /** The answer as the node compares it: stripped, lower-cased, stripped again. */
  function NormalizeAnswer(line: string): string {
    Strip(Lower(Utils.AskUserForInput(line)))
  }

  /** The second strip finds nothing left to remove: the answer is the stripped line, lower-cased. */
  lemma NormalizeAnswerIsLowerStrip(line: string)
    ensures NormalizeAnswer(line) == Lower(Strip(line))
  {
    LowerKeepsTrimmed(line);
  }

  predicate IsChoice(line: string) {
    NormalizeAnswer(line) in ValidResponses
  }

  /** The choice an accepted answer selects. */
  function ChoiceOf(line: string): (choice: string)
    requires IsChoice(line)
    ensures choice == MoreQuestions || choice == NewTopic || choice == Exit
    ensures choice == MoreQuestions <==> NormalizeAnswer(line) == "1" || NormalizeAnswer(line) == MoreQuestions
    ensures choice == NewTopic <==> NormalizeAnswer(line) == "2" || NormalizeAnswer(line) == NewTopic
    ensures choice == Exit <==> NormalizeAnswer(line) == "3" || NormalizeAnswer(line) == Exit
  {
    ValidResponsesShape();
    ValidResponses[NormalizeAnswer(line)]
  }

  /** An answer is accepted exactly when, stripped and lower-cased, it is a number 1-3 or a choice's name. */
  lemma IsChoiceIff(line: string)
    ensures IsChoice(line) <==> Lower(Strip(line)) in {"1", "2", "3", MoreQuestions, NewTopic, Exit}
  {
    NormalizeAnswerIsLowerStrip(line);
    ValidResponsesShape();
  }

  /**
    The answer table: "1", "2" and "3" select more_questions, new_topic and
    exit, and each choice's name selects itself; nothing else is accepted.
  */
  lemma ValidResponsesShape()
    ensures ValidResponses.Values == {MoreQuestions, NewTopic, Exit}
    ensures forall c | c in ValidResponses.Values :: c in ValidResponses && ValidResponses[c] == c
    ensures ValidResponses.Keys == {"1", "2", "3", MoreQuestions, NewTopic, Exit}
    ensures ValidResponses["1"] == MoreQuestions
    ensures ValidResponses["2"] == NewTopic
    ensures ValidResponses["3"] == Exit
    ensures |ValidResponses.Keys| == 6
  {
    assert ValidResponses["1"] == MoreQuestions;
    assert ValidResponses["2"] == NewTopic;
    assert ValidResponses["3"] == Exit;
    assert ValidResponses.Keys == {"1", "2", "3", MoreQuestions, NewTopic, Exit};
  }

  /**
    The state after a choice: the choice is recorded; `more_questions` logs
    two messages, `exit` one, and `new_topic` one before the topic reset.
  */
  function ApplyChoice(s: State, choice: string): (r: State)
    ensures choice != NewTopic ==> r.shouldContinue == Some(choice)
    ensures choice == NewTopic ==> r == ResetForNewTopic(Log(s, [NewTopicMessage]))
    ensures choice != NewTopic ==>
              r.(shouldContinue := s.shouldContinue, messages := s.messages) == s
  {
    var chosen := s.(shouldContinue := Some(choice));
    if choice == MoreQuestions then
      Log(chosen, MoreQuestionsMessages)
    else if choice == NewTopic then
      ResetForNewTopic(Log(chosen, [NewTopicMessage]))
    else
      Log(chosen, [ExitMessage])
  }

  /** How many messages each choice appends to the history. */
  lemma ApplyChoiceMessages(s: State, choice: string)
    ensures choice == MoreQuestions ==> |ApplyChoice(s, choice).messages| == |s.messages| + 2
    ensures choice == NewTopic ==> |ApplyChoice(s, choice).messages| == |s.messages| + 1
    ensures choice == Exit ==> |ApplyChoice(s, choice).messages| == |s.messages| + 1
    ensures ApplyChoice(s, choice).messages[..|s.messages|] == s.messages
  {
  }

  /**
    `ask_continue`: re-prompt until the answer is one of the six accepted
    ones, then apply the choice it selects.
  */
  function AskContinue(s: State, inputs: seq<string>): (r: Result<Step, Failure>)
    ensures r.Failure? ==> r.error == InputExhausted
    ensures r.Success? ==>
              && |r.value.rest| < |inputs| && r.value.rest == inputs[|inputs| - |r.value.rest|..]
              && r.value.state in {ApplyChoice(s, MoreQuestions), ApplyChoice(s, NewTopic), ApplyChoice(s, Exit)}
  {
    match ReadUntil(inputs, IsChoice)
    case None => Failure(InputExhausted)
    case Some(k) =>
      var choice := ChoiceOf(inputs[k]);
      assert ApplyChoice(s, choice) in {ApplyChoice(s, MoreQuestions), ApplyChoice(s, NewTopic), ApplyChoice(s, Exit)};
      Success(Step(ApplyChoice(s, choice), inputs[k + 1..]))
  }

  /** The choice applied is the one selected by the first accepted answer. */
  lemma AskContinueTakesFirstChoice(s: State, inputs: seq<string>, k: nat)
    requires FirstAccepted(inputs, IsChoice, k)
    ensures AskContinue(s, inputs) == Success(Step(ApplyChoice(s, ChoiceOf(inputs[k])), inputs[k + 1..]))
  {
    ReadUntilFindsFirst(inputs, IsChoice, k);
  }

  /** Without an accepted answer the prompt repeats until the input runs out. */
  lemma AskContinueExhausted(s: State, inputs: seq<string>)
    requires forall m | 0 <= m < |inputs| :: !IsChoice(inputs[m])
    ensures AskContinue(s, inputs) == Failure(InputExhausted)
  {
  }

  /**
    The `new_topic` branch as its docstring describes it: the topic-scoped
    fields are reset, but the choice itself survives the reset so that the
    router can act on it.
  */
  function ApplyChoiceIntended(s: State, choice: string): (r: State)
    ensures r.shouldContinue == Some(choice)
    ensures choice == NewTopic ==>
              r == ResetForNewTopic(Log(s, [NewTopicMessage])).(shouldContinue := Some(NewTopic))
    ensures choice != NewTopic ==> r == ApplyChoice(s, choice)
  {
    if choice == NewTopic then
      ResetForNewTopic(Log(s, [NewTopicMessage])).(shouldContinue := Some(NewTopic))
    else ApplyChoice(s, choice)
  }

  /** `ask_continue` with the corrected `new_topic` branch. */
  function AskContinueIntended(s: State, inputs: seq<string>): (r: Result<Step, Failure>)
    ensures r.Failure? <==> AskContinue(s, inputs).Failure?
    ensures r.Success? ==>
              && r.value.rest == AskContinue(s, inputs).value.rest
              && r.value.state.shouldContinue.Some?
              && r.value.state.shouldContinue.value in {MoreQuestions, NewTopic, Exit}
  {
    match ReadUntil(inputs, IsChoice)
    case None => Failure(InputExhausted)
    case Some(k) => Success(Step(ApplyChoiceIntended(s, ChoiceOf(inputs[k])), inputs[k + 1..]))
  }

  /** The corrected node applies the choice of the same first accepted answer. */
  lemma AskContinueIntendedTakesFirstChoice(s: State, inputs: seq<string>, k: nat)
    requires FirstAccepted(inputs, IsChoice, k)
    ensures AskContinueIntended(s, inputs) == Success(Step(ApplyChoiceIntended(s, ChoiceOf(inputs[k])), inputs[k + 1..]))
  {
    ReadUntilFindsFirst(inputs, IsChoice, k);
  }
}

=== FILE: state.dfy ===
/**
  The HealthBot state record and the topic-scoped reset.
  A `None` field stands both for a key holding `None` and for a missing key:
  every reader of these fields treats the two alike.
*/
module HealthState {
  import opened Wrappers

  /** A chat message: `HumanMessage` or `AIMessage`, with its content. */
  datatype Message = Human(content: string) | Ai(content: string)

  datatype State = State(
    messages: seq<Message>,
    healthTopic: Option<string>,
    searchResults: Option<string>,
    summary: Option<string>,
    quizQuestion: Option<string>,
    patientAnswer: Option<string>,
    grade: Option<int>,
    feedback: Option<string>,
    shouldContinue: Option<string>,
    sessionId: Option<string>,
    quizCount: int)

  /** Python truthiness of an optional string: set and not `""`. */
  predicate Truthy(o: Option<string>) {
    o.Some? && o.value != ""
  }

  /** The record with the schema's declared defaults for every added field. */
  function SchemaDefaults(messages: seq<Message>, sessionId: Option<string>): State {
    State(messages, None, None, None, None, None, None, None, None, sessionId, 0)
  }

  /** The fields that belong to one topic: all but `messages` and `session_id`. */
  predicate TopicScopedCleared(s: State) {
    && s.healthTopic.None? && s.searchResults.None? && s.summary.None?
    && s.quizQuestion.None? && s.patientAnswer.None? && s.grade.None?
    && s.feedback.None? && s.shouldContinue.None? && s.quizCount == 0
  }

  /** `reset_for_new_topic`: clear every topic-scoped field, keep messages and session id. */
  function ResetForNewTopic(s: State): (r: State)
    ensures TopicScopedCleared(r)
    ensures r.messages == s.messages && r.sessionId == s.sessionId
  {
    s.(healthTopic := None, searchResults := None, summary := None,
       quizQuestion := None, patientAnswer := None, grade := None,
       feedback := None, shouldContinue := None, quizCount := 0)
  }

  /** The reset result is exactly the schema-default record around the kept fields. */
  lemma ResetIsSchemaDefaults(s: State)
    ensures ResetForNewTopic(s) == SchemaDefaults(s.messages, s.sessionId)
  {
  }

  /** A state is a reset result exactly when its topic-scoped fields are all cleared. */
  lemma ResetFixedPoints(s: State)
    ensures ResetForNewTopic(s) == s <==> TopicScopedCleared(s)
  {
  }

  lemma ResetIdempotent(s: State)
    ensures ResetForNewTopic(ResetForNewTopic(s)) == ResetForNewTopic(s)
  {
  }

  /** The reset forgets everything except the messages and the session id. */
  lemma ResetDeterminedByKeptFields(s: State, t: State)
    requires s.messages == t.messages && s.sessionId == t.sessionId
    ensures ResetForNewTopic(s) == ResetForNewTopic(t)
  {
  }
}

=== FILE: text.dfy ===
/**
  The Python `str` built-ins the HealthBot core relies on: `strip`, `lower`,
  `isdigit`, `int`, `str`, `startswith`, `replace(p, "")`, `split('\n')`,
  `'\n'.join` and `c * n`. Characters are taken to be ASCII: whitespace is
  what `str.isspace` accepts below code point 128, case folding maps only
  `A`-`Z`, and the digits are `0`-`9`.
*/
module Text {

  // ---------------------------------------------------------------------------
  // Whitespace and strip()
  // ---------------------------------------------------------------------------

  /** `str.isspace` on ASCII: space, tab, LF, VT, FF, CR and the separators 0x1C-0x1F. */
  predicate IsSpace(c: char) {
    var n := c as int;
    n == 32 || 9 <= n <= 13 || 28 <= n <= 31
  }

  predicate AllSpace(s: string) {
    forall i | 0 <= i < |s| :: IsSpace(s[i])
  }

  /** Neither the first nor the last character of `s` is whitespace. */
  predicate Trimmed(s: string) {
    s == [] || (!IsSpace(s[0]) && !IsSpace(s[|s| - 1]))
  }

  /** The index of the first non-whitespace character of `s` at or after `i` (or `|s|`). */
  function SkipSpace(s: string, i: nat): (n: nat)
    requires i <= |s|
    ensures i <= n <= |s|
    ensures forall k | i <= k < n :: IsSpace(s[k])
    ensures n < |s| ==> !IsSpace(s[n])
    decreases |s| - i
  {
    if i < |s| && IsSpace(s[i]) then SkipSpace(s, i + 1) else i
  }

  /** The index just past the last non-whitespace character of `s[lo..j]` (or `lo`). */
  function SkipSpaceBack(s: string, lo: nat, j: nat): (n: nat)
    requires lo <= j <= |s|
    ensures lo <= n <= j
    ensures forall k | n <= k < j :: IsSpace(s[k])
    ensures n > lo ==> !IsSpace(s[n - 1])
    decreases j
  {
    if j > lo && IsSpace(s[j - 1]) then SkipSpaceBack(s, lo, j - 1) else j
  }

  /**
    `s.strip()`: the part of `s` between its leading and its trailing
    whitespace.
  */
  function Strip(s: string): (r: string)
    ensures |r| <= |s|
    ensures Trimmed(r)
    ensures r == [] <==> AllSpace(s)
  {
    var i := SkipSpace(s, 0);
    var j := SkipSpaceBack(s, i, |s|);
    assert i < |s| ==> j > i;
    s[i..j]
  }

  /** `strip` only removes whitespace, and only at the two ends. */
  lemma StripParts(s: string) returns (pre: string, post: string)
    ensures s == pre + Strip(s) + post
    ensures AllSpace(pre) && AllSpace(post)
  {
    var i := SkipSpace(s, 0);
    var j := SkipSpaceBack(s, i, |s|);
    pre, post := s[..i], s[j..];
    assert s == s[..i] + s[i..j] + s[j..];
  }

  /** The four pieces of a concatenation can be sliced back out of it. */
  lemma Concat4(a: string, b: string, c: string, d: string)
    ensures var r := a + b + c + d;
            && r[..|a|] == a
            && r[|a|..|a| + |b|] == b
            && r[|a| + |b|..|a| + |b| + |c|] == c
            && r[|a| + |b| + |c|..] == d
  {
  }

  /** A string without edge whitespace is its own `strip`. */
  lemma StripTrimmed(s: string)
    requires Trimmed(s)
    ensures Strip(s) == s
  {
    if s != [] {
      assert SkipSpace(s, 0) == 0;
    }
  }

  /** A single space before a non-empty stripped string is stripped away. */
  lemma StripSpaceBefore(s: string)
    requires s != [] && Trimmed(s)
    ensures Strip(" " + s) == s
  {
    var t := " " + s;
    assert SkipSpace(t, 1) == 1;
    assert SkipSpace(t, 0) == 1;
    assert t[1..] == s;
  }

  lemma StripIdempotent(s: string)
    ensures Strip(Strip(s)) == Strip(s)
  {
    StripTrimmed(Strip(s));
  }

  // ---------------------------------------------------------------------------
  // lower()
  // ---------------------------------------------------------------------------

  predicate IsUpper(c: char) {
    'A' <= c <= 'Z'
  }

  /** One character of `lower()`: a capital becomes its small letter, anything else is kept. */
  function LowerChar(c: char): (r: char)
    ensures !IsUpper(r)
    ensures IsUpper(c) ==> 'a' <= r <= 'z' && r as int - c as int == 'a' as int - 'A' as int
    ensures !IsUpper(c) ==> r == c
  {
    if IsUpper(c) then (c as int + 32) as char else c
  }

  /** `s.lower()` */
  function Lower(s: string): (r: string)
    ensures |r| == |s|
    ensures forall i | 0 <= i < |s| :: r[i] == LowerChar(s[i])
  {
    seq(|s|, i requires 0 <= i < |s| => LowerChar(s[i]))
  }

  /** A lower-cased text has no capitals left, and its whitespace is where it was. */
  lemma LowerShape(s: string)
    ensures forall i | 0 <= i < |s| :: !IsUpper(Lower(s)[i])
    ensures forall i | 0 <= i < |s| :: IsSpace(Lower(s)[i]) <==> IsSpace(s[i])
  {
  }

  /** Lower-casing twice is lower-casing once. */
  lemma LowerIdempotent(s: string)
    ensures Lower(Lower(s)) == Lower(s)
  {
  }

  /**
    Lower-casing keeps whitespace where it was, so a stripped text stays
    stripped: `line.strip().lower().strip()` is `line.strip().lower()`.
  */
  lemma LowerKeepsTrimmed(s: string)
    ensures Trimmed(Lower(Strip(s)))
    ensures Strip(Lower(Strip(s))) == Lower(Strip(s))
  {
    var t := Strip(s);
    if t != [] {
      assert IsSpace(Lower(t)[0]) <==> IsSpace(t[0]);
      assert IsSpace(Lower(t)[|t| - 1]) <==> IsSpace(t[|t| - 1]);
    }
    StripTrimmed(Lower(t));
  }

  // ---------------------------------------------------------------------------
  // Digits, int() and str()
  // ---------------------------------------------------------------------------

  predicate IsDigit(c: char) {
    '0' <= c <= '9'
  }

  predicate AllDigits(s: string) {
    forall i | 0 <= i < |s| :: IsDigit(s[i])
  }

  /** `''.join(filter(str.isdigit, s))`: the digits of `s`, in order. */
  function Digits(s: string): (r: string)
    ensures AllDigits(r) && |r| <= |s|
  {
    if s == [] then [] else (if IsDigit(s[0]) then [s[0]] else []) + Digits(s[1..])
  }

  lemma {:induction false} DigitsAppend(a: string, b: string)
    ensures Digits(a + b) == Digits(a) + Digits(b)
  {
    if a != [] {
      assert (a + b)[0] == a[0];
      assert (a + b)[1..] == a[1..] + b;
      DigitsAppend(a[1..], b);
    } else {
      assert a + b == b;
    }
  }

  /** A string without a digit has no digits to keep. */
  lemma {:induction false} DigitFree(s: string)
    requires forall k | 0 <= k < |s| :: !IsDigit(s[k])
    ensures Digits(s) == []
  {
    if s != [] {
      DigitFree(s[1..]);
    }
  }

  /** Keeping the digits of an all-digit string keeps all of it. */
  lemma {:induction false} DigitsOfDigits(s: string)
    requires AllDigits(s)
    ensures Digits(s) == s
  {
    if s != [] {
      DigitsOfDigits(s[1..]);
      assert [s[0]] + s[1..] == s;
    }
  }

  lemma {:induction false} DigitsOfSpace(s: string)
    requires AllSpace(s)
    ensures Digits(s) == []
  {
    if s != [] {
      DigitsOfSpace(s[1..]);
    }
  }

  /** Stripping never adds or removes a digit. */
  lemma DigitsStrip(s: string)
    ensures Digits(Strip(s)) == Digits(s)
  {
    var pre, post := StripParts(s);
    DigitsAppend(pre + Strip(s), post);
    DigitsAppend(pre, Strip(s));
    DigitsOfSpace(pre);
    DigitsOfSpace(post);
  }

  function DigitValue(c: char): nat
    requires IsDigit(c)
  {
    c as int - '0' as int
  }

  function DigitChar(d: nat): (c: char)
    requires d < 10
    ensures IsDigit(c) && DigitValue(c) == d
  {
    ('0' as int + d) as char
  }

  /** `int(s)` for a non-empty string of decimal digits (leading zeros allowed). */
  function DecimalValue(s: string): (v: nat)
    requires AllDigits(s)
    ensures v == 0 <==> forall i | 0 <= i < |s| :: s[i] == '0'
  {
    if s == [] then 0 else 10 * DecimalValue(s[..|s| - 1]) + DigitValue(s[|s| - 1])
  }

  /** `str(n)` for a non-negative integer: the canonical decimal numeral, read back by `int`. */
  function NatToString(n: nat): (r: string)
    ensures |r| >= 1 && AllDigits(r)
    ensures DecimalValue(r) == n
    ensures r[0] == '0' ==> r == "0"
  {
    if n < 10 then [DigitChar(n)]
    else
      var r := NatToString(n / 10) + [DigitChar(n % 10)];
      assert r[..|r| - 1] == NatToString(n / 10);
      r
  }

  /** `str(i)` for any integer. */
  function IntToString(i: int): (r: string)
    ensures |r| >= 1
    ensures i >= 0 ==> AllDigits(r) && DecimalValue(r) == i
    ensures i < 0 <==> r[0] == '-'
  {
    if i < 0 then "-" + NatToString(-i) else NatToString(i)
  }

  // ---------------------------------------------------------------------------
  // startswith() and replace(p, "")
  // ---------------------------------------------------------------------------

  predicate StartsWith(s: string, p: string) {
    |p| <= |s| && s[..|p|] == p
  }

  /** An occurrence of `p` starts at position `k` of `s`. */
  predicate OccursAt(s: string, p: string, k: nat) {
    k + |p| <= |s| && s[k..k + |p|] == p
  }

  /** No occurrence of `p` starts at any position of `s`. */
  predicate Absent(s: string, p: string) {
    forall k: nat | k <= |s| :: !OccursAt(s, p, k)
  }

  /** `s.replace(p, "")`: the non-overlapping occurrences of `p`, found left to right, are deleted. */
  function RemoveAll(s: string, p: string): (r: string)
    requires p != []
    ensures |r| <= |s|
    decreases |s|
  {
    if |s| < |p| then s
    else if s[..|p|] == p then RemoveAll(s[|p|..], p)
    else [s[0]] + RemoveAll(s[1..], p)
  }

  /** Deleting a pattern that does not occur leaves the string unchanged. */
  lemma {:induction false} RemoveAbsent(s: string, p: string)
    requires p != [] && Absent(s, p)
    ensures RemoveAll(s, p) == s
    decreases |s|
  {
    if |s| >= |p| {
      assert !OccursAt(s, p, 0);
      assert Absent(s[1..], p) by {
        forall k: nat | k <= |s[1..]|
          ensures !OccursAt(s[1..], p, k)
        {
          assert !OccursAt(s, p, k + 1);
          if k + |p| <= |s[1..]| {
            assert s[1..][k..k + |p|] == s[k + 1..k + 1 + |p|];
          }
        }
      }
      RemoveAbsent(s[1..], p);
    }
  }

  /** Deleting a digit-free pattern keeps every digit, in order. */
  lemma {:induction false} DigitsRemoveAll(s: string, p: string)
    requires p != [] && Digits(p) == []
    ensures Digits(RemoveAll(s, p)) == Digits(s)
    decreases |s|
  {
    if |s| < |p| {
    } else if s[..|p|] == p {
      DigitsRemoveAll(s[|p|..], p);
      assert s == p + s[|p|..];
      DigitsAppend(p, s[|p|..]);
    } else {
      DigitsRemoveAll(s[1..], p);
      assert [s[0]] + RemoveAll(s[1..], p) == RemoveAll(s, p);
      DigitsAppend([s[0]], RemoveAll(s[1..], p));
      assert s == [s[0]] + s[1..];
      DigitsAppend([s[0]], s[1..]);
    }
  }

  // ---------------------------------------------------------------------------
  // split('\n') and '\n'.join
  // ---------------------------------------------------------------------------

  predicate NoNewline(s: string) {
    '\n' !in s
  }

  /** `s.split('\n')`: never empty, no piece contains a newline. */
  function SplitLines(s: string): (lines: seq<string>)
    ensures |lines| >= 1
    ensures forall i | 0 <= i < |lines| :: NoNewline(lines[i])
  {
    if s == [] then [[]]
    else
      var rest := SplitLines(s[1..]);
      if s[0] == '\n' then [[]] + rest else [[s[0]] + rest[0]] + rest[1..]
  }

  /** `'\n'.join(lines)` */
  function JoinLines(lines: seq<string>): (r: string)
    ensures lines != [] ==> StartsWith(r, lines[0])
    ensures |lines| >= 2 ==> |r| > |lines[0]| && r[|lines[0]|] == '\n'
  {
    if lines == [] then []
    else if |lines| == 1 then lines[0]
    else lines[0] + "\n" + JoinLines(lines[1..])
  }

  /** Joining the pieces of a split gives the original text back. */
  lemma {:induction false} JoinSplit(s: string)
    ensures JoinLines(SplitLines(s)) == s
  {
    if s != [] {
      var rest := SplitLines(s[1..]);
      JoinSplit(s[1..]);
      if s[0] == '\n' {
        assert SplitLines(s)[1..] == rest;
      } else if |rest| == 1 {
        assert JoinLines(SplitLines(s)) == [s[0]] + rest[0];
      } else {
        var lines := SplitLines(s);
        assert lines[1..] == rest[1..];
        assert JoinLines(rest) == rest[0] + "\n" + JoinLines(rest[1..]);
        assert JoinLines(lines) == [s[0]] + rest[0] + "\n" + JoinLines(rest[1..]);
      }
    }
  }

  lemma {:induction false} SplitSingle(a: string)
    requires NoNewline(a)
    ensures SplitLines(a) == [a]
  {
    if a != [] {
      SplitSingle(a[1..]);
      assert [a[0]] + a[1..] == a;
    }
  }

  lemma {:induction false} SplitCons(a: string, b: string)
    requires NoNewline(a)
    ensures SplitLines(a + "\n" + b) == [a] + SplitLines(b)
  {
    if a == [] {
      assert a + "\n" + b == "\n" + b;
      assert ("\n" + b)[1..] == b;
    } else {
      SplitCons(a[1..], b);
      assert (a + "\n" + b)[1..] == a[1..] + "\n" + b;
      assert [a[0]] + a[1..] == a;
    }
  }

  /** Splitting newline-free lines joined by newlines gives the lines back. */
  lemma {:induction false} SplitJoin(lines: seq<string>)
    requires |lines| >= 1
    requires forall i | 0 <= i < |lines| :: NoNewline(lines[i])
    ensures SplitLines(JoinLines(lines)) == lines
  {
    if |lines| == 1 {
      SplitSingle(lines[0]);
    } else {
      SplitJoin(lines[1..]);
      SplitCons(lines[0], JoinLines(lines[1..]));
      assert [lines[0]] + lines[1..] == lines;
    }
  }

  // ---------------------------------------------------------------------------
  // c * n
  // ---------------------------------------------------------------------------

  /** `c * n` for a one-character string `c`; a count of zero or less gives `""`. */
  function Repeat(c: char, n: int): (r: string)
    ensures |r| == if n <= 0 then 0 else n
    ensures forall i | 0 <= i < |r| :: r[i] == c
  {
    if n <= 0 then [] else [c] + Repeat(c, n - 1)
  }
}

=== FILE: tools.dfy ===
/**
  The search step of `search_medical_information`: key check, query
  construction and the formatting of the results into one text block.
  The search client itself is a parameter.
*/
module Tools {
  import opened Wrappers
  import opened Errors
  import opened Text

  const QuerySuffix: string := " patient education medical information"
  const DefaultMaxResults: int := 5
  const SnippetLength: nat := 300
  const NoResults: string := "No results found"
  const MissingKeyMessage: string :=
    "TAVILY_API_KEY not found. Add it to root .env file (first 1000 requests free at https://app.tavily.com)"

  /** One search result; a `None` field is a key the result does not carry. */
  datatype SearchHit = SearchHit(title: Option<string>, url: Option<string>, content: Option<string>)

  /**
    What the search client hands back: a failure, or a response whose
    `results` entry is `None` when the response is empty or has no such key.
  */
  datatype SearchReply = SearchFailed(message: string) | SearchResponse(results: Option<seq<SearchHit>>)

  /** The query sent for a topic: the topic, then the fixed patient-education suffix. */
  function SearchQuery(topic: string): (q: string)
    ensures |q| == |topic| + |QuerySuffix|
    ensures q[..|topic|] == topic && q[|topic|..] == QuerySuffix
  {
    topic + QuerySuffix
  }

  /** Different topics are never sent as the same query. */
  lemma SearchQueryInjective(a: string, b: string)
    requires SearchQuery(a) == SearchQuery(b)
    ensures a == b
  {
    assert |a| == |b|;
    assert a == SearchQuery(a)[..|a|];
  }

  /** `content[:300]`: at most 300 leading characters of the content. */
  function Snippet(content: string): (r: string)
    ensures |r| == if |content| < SnippetLength then |content| else SnippetLength
    ensures r == content[..|r|]
  {
    if |content| <= SnippetLength then content else content[..SnippetLength]
  }

  function GetOr(o: Option<string>, default: string): string {
    match o
    case Some(v) => v
    case None => default
  }

  /** The label of a result: its 1-based number followed by ". ". */
  function Label(i: nat): string {
    NatToString(i) + ". "
  }

  /** The title, then the "Source:" line with the URL, then the indent of the content line. */
  function TitleAndSource(hit: SearchHit): string {
    GetOr(hit.title, "No title") + "\n   Source: " + GetOr(hit.url, "No URL") + "\n   "
  }

  /** At most 300 leading characters of the content, or of "No content" when it is missing. */
  function ContentSnippet(hit: SearchHit): (r: string)
    ensures |r| <= SnippetLength
  {
    Snippet(GetOr(hit.content, "No content"))
  }

  /**
    The three lines the formatter writes for the result numbered `i`: a blank
    line break, the label and title, the source line, and the content snippet
    followed by "...".
  */
  function Entry(i: nat, hit: SearchHit): (r: string)
    ensures |r| == 1 + |Label(i)| + |TitleAndSource(hit)| + |ContentSnippet(hit)| + 4
    ensures r[0] == '\n'
    ensures OccursAt(r, Label(i), 1)
    ensures OccursAt(r, TitleAndSource(hit), 1 + |Label(i)|)
    ensures r[|r| - 4 - |ContentSnippet(hit)|..] == ContentSnippet(hit) + "...\n"
  {
    var r := "\n" + Label(i) + TitleAndSource(hit) + ContentSnippet(hit) + "...\n";
    FiveParts("\n", Label(i), TitleAndSource(hit), ContentSnippet(hit), "...\n");
    r
  }

  /** Where each of five concatenated parts sits in the whole. */
  lemma FiveParts(a: string, b: string, c: string, d: string, e: string)
    ensures var r := a + b + c + d + e;
      && |r| == |a| + |b| + |c| + |d| + |e|
      && r[..|a|] == a
      && r[|a|..|a| + |b|] == b
      && r[|a| + |b|..|a| + |b| + |c|] == c
      && r[|r| - |e| - |d|..] == d + e
  {
    var r := a + b + c + d + e;
    assert r == a + (b + (c + (d + e)));
    assert r[|a|..] == b + (c + (d + e));
    assert r[|a| + |b|..] == c + (d + e);
    assert r[|a| + |b| + |c|..] == d + e;
  }

  /** A result without title, URL or content gets the three defaults. */
  lemma EntryDefaults(i: nat)
    ensures Entry(i, SearchHit(None, None, None))
         == "\n" + Label(i) + "No title\n   Source: No URL\n   No content...\n"
  {
    var hit := SearchHit(None, None, None);
    var t := "No title\n   Source: No URL\n   ";
    assert TitleAndSource(hit) == t;
    assert ContentSnippet(hit) == "No content";
    assert t + "No content" + "...\n" == "No title\n   Source: No URL\n   No content...\n";
  }

  /**
    The content line of an entry shows the first 300 characters of the content
    and nothing after them: a longer content is cut.
  */
  lemma EntryCutsLongContent(i: nat, hit: SearchHit)
    requires hit.content.Some? && |hit.content.value| > SnippetLength
    ensures var r := Entry(i, hit);
      r[|r| - 4 - SnippetLength..] == hit.content.value[..SnippetLength] + "...\n"
  {
  }

  /** The strings `f(first, xs[0])`, `f(first + 1, xs[1])`, ... concatenated in order. */
  function ConcatNumbered<T>(xs: seq<T>, f: (nat, T) -> string, first: nat): string {
    if xs == [] then [] else f(first, xs[0]) + ConcatNumbered(xs[1..], f, first + 1)
  }

  /**
    The piece for the element at index `j` sits between the pieces of the
    elements before it and those after it, numbered `first + j`.
  */
  lemma {:induction false} ConcatNumberedSplit<T>(xs: seq<T>, f: (nat, T) -> string, first: nat, j: nat)
    requires j < |xs|
    ensures ConcatNumbered(xs, f, first)
         == ConcatNumbered(xs[..j], f, first) + f(first + j, xs[j]) + ConcatNumbered(xs[j + 1..], f, first + j + 1)
  {
    if j == 0 {
      assert xs[..0] == [];
      assert xs[1..] == xs[j + 1..];
    } else {
      var tail := xs[1..];
      ConcatNumberedSplit(tail, f, first + 1, j - 1);
      assert tail[..j - 1] == xs[..j][1..];
      assert tail[j - 1] == xs[j];
      assert tail[j..] == xs[j + 1..];
      var before := ConcatNumbered(tail[..j - 1], f, first + 1);
      var after := ConcatNumbered(xs[j + 1..], f, first + j + 1);
      assert ConcatNumbered(xs[..j], f, first) == f(first, xs[0]) + before;
      assert ConcatNumbered(xs, f, first) == f(first, xs[0]) + (before + f(first + j, xs[j]) + after);
    }
  }

  /** The entries for `hits`, numbered from `first`, in input order. */
  function Entries(hits: seq<SearchHit>, first: nat): (r: string)
    ensures r == [] <==> hits == []
    ensures hits != [] ==> r[0] == '\n'
  {
    if hits == [] then []
    else
      ConcatNumbered(hits, Entry, first)
  }

  /**
    The entry of the result at index `j`, numbered `first + j`, sits between
    the entries of the results before it and those after it.
  */
  lemma EntriesSplit(hits: seq<SearchHit>, first: nat, j: nat)
    requires j < |hits|
    ensures Entries(hits, first)
         == Entries(hits[..j], first) + Entry(first + j, hits[j]) + Entries(hits[j + 1..], first + j + 1)
  {
    ConcatNumberedSplit(hits, Entry, first, j);
  }

  /** Appending one result appends its entry, numbered after the others. */
  lemma EntriesSnoc(hits: seq<SearchHit>, first: nat, hit: SearchHit)
    ensures Entries(hits + [hit], first) == Entries(hits, first) + Entry(first + |hits|, hit)
  {
    var all := hits + [hit];
    EntriesSplit(all, first, |hits|);
    assert all[..|hits|] == hits;
    assert all[|hits| + 1..] == [];
  }

  /**
    The formatting loop of `search_medical_information`: one entry per result,
    numbered from 1, or `"No results found"` when there is nothing to list.
  */
  function FormatResults(results: Option<seq<SearchHit>>): (r: string)
    ensures r != []
    ensures r == NoResults <==> results.None? || results.value == []
    ensures results.Some? && results.value != [] ==> r == Entries(results.value, 1)
  {
    var formatted := if results.Some? then Entries(results.value, 1) else [];
    if formatted != [] then formatted else NoResults
  }

  /**
    `search_medical_information(topic, max_results)`: a missing or empty key
    raises before the client is consulted; a client failure is re-raised with
    a fixed prefix; otherwise the formatted results are returned.
  */
  function SearchMedicalInformation(topic: string, apiKey: Option<string>,
                                    search: (string, int) -> SearchReply,
                                    maxResults: int := DefaultMaxResults): (r: Result<string, Failure>)
    ensures apiKey.None? || apiKey.value == [] ==> r.Failure? && r.error.EnvironmentError?
    ensures apiKey.Some? && apiKey.value != [] ==>
      match search(SearchQuery(topic), maxResults)
      case SearchFailed(m) => r == Failure(SearchError("Error searching for medical information: " + m))
      case SearchResponse(results) => r.Success? && r.value != [] && r.value == FormatResults(results)
  {
    if apiKey.None? || apiKey.value == [] then
      Failure(EnvironmentError(MissingKeyMessage))
    else
      match search(SearchQuery(topic), maxResults)
      case SearchFailed(m) => Failure(SearchError("Error searching for medical information: " + m))
      case SearchResponse(results) => Success(FormatResults(results))
  }

  /** Without a key the outcome does not depend on the search client at all. */
  lemma MissingKeyNeverSearches(topic: string, search1: (string, int) -> SearchReply,
                                search2: (string, int) -> SearchReply, maxResults: int)
    ensures SearchMedicalInformation(topic, None, search1, maxResults)
         == SearchMedicalInformation(topic, None, search2, maxResults)
    ensures SearchMedicalInformation(topic, Some(""), search1, maxResults)
         == SearchMedicalInformation(topic, Some(""), search2, maxResults)
  {
  }
}

=== FILE: utils.dfy ===
/** Console-facing helpers: input stripping, the two validators and the display formatters. */
module Utils {
  import opened Wrappers
  import opened Errors
  import opened Text

  const DefaultMinTopicLength: int := 3
  const DefaultMaxTopicLength: int := 500
  const DefaultSeparatorLength: int := 50

  /** `ask_user_for_input`: the line typed at the console, stripped of surrounding whitespace. */
  function AskUserForInput(line: string): (r: string)
    ensures |r| <= |line|
    ensures Trimmed(r)
    ensures r == [] <==> AllSpace(line)
  {
    Strip(line)
  }

  /** The error `validate_non_empty_input` raises for the field it checks. */
  function EmptyInputError(fieldName: string): Failure {
    ValueError(fieldName + " cannot be empty")
  }

  /** `validate_non_empty_input`: raises exactly for an empty or all-whitespace input. */
  function ValidateNonEmptyInput(userInput: string, fieldName: string := "Input"): (r: Outcome<Failure>)
    ensures r.Fail? <==> AllSpace(userInput)
    ensures r.Fail? ==> r.error == EmptyInputError(fieldName)
  {
    if userInput == [] || |Strip(userInput)| == 0 then Fail(EmptyInputError(fieldName))
    else Pass
  }

  /** `validate_topic_length`: accepts exactly the lengths in [minLength, maxLength], unstripped. */
  function ValidateTopicLength(topic: string, minLength: int := DefaultMinTopicLength,
                               maxLength: int := DefaultMaxTopicLength): (r: Outcome<Failure>)
    ensures r.Pass? <==> minLength <= |topic| <= maxLength
    ensures |topic| < minLength ==>
      r.error == ValueError("Topic must be at least " + IntToString(minLength) + " characters")
    ensures minLength <= |topic| && maxLength < |topic| ==>
      r.error == ValueError("Topic must be no more than " + IntToString(maxLength) + " characters")
  {
    if |topic| < minLength then Fail(ValueError("Topic must be at least " + IntToString(minLength) + " characters"))
    else if |topic| > maxLength then Fail(ValueError("Topic must be no more than " + IntToString(maxLength) + " characters"))
    else Pass
  }

  /** `format_summary_for_display`: the width argument is accepted and ignored. */
  function FormatSummaryForDisplay(summary: string, width: int := 80): string {
    summary
  }

  /** `format_quiz_for_display` */
  function FormatQuizForDisplay(question: string): string {
    question
  }

  /** Both display formatters hand their text back unchanged, whatever the width. */
  lemma FormattersAreIdentity(text: string, width: int)
    ensures FormatSummaryForDisplay(text, width) == text == FormatSummaryForDisplay(text)
    ensures FormatQuizForDisplay(text) == text
  {
  }

  /** `separator(char, length)` for a one-character `char`. */
  function Separator(c: char := '-', length: int := DefaultSeparatorLength): (r: string)
    ensures |r| == if length <= 0 then 0 else length
    ensures forall i | 0 <= i < |r| :: r[i] == c
  {
    Repeat(c, length)
  }

  lemma SeparatorDefault()
    ensures |Separator()| == 50
    ensures forall i | 0 <= i < 50 :: Separator()[i] == '-'
  {
  }

  /** The 50-character `=` rule that frames a grade report. */
  function ReportRule(): string {
    Repeat('=', 50)
  }

  /** The heading block of a grade report. */
  function ReportBanner(): string {
    "\n" + ReportRule() + "\nQUIZ RESULT\n" + ReportRule() + "\n"
  }

  function GradeLine(grade: int): string {
    "Grade: " + IntToString(grade) + "/100\n\n"
  }

  /**
    `format_grade_report`: a banner framed by `=` rules, then the grade line
    `Grade: {grade}/100`, then `Explanation:` and the feedback, then a closing rule.
  */
  function FormatGradeReport(grade: int, feedback: string): (r: string)
    ensures StartsWith(r, ReportBanner())
    ensures OccursAt(r, GradeLine(grade), |ReportBanner()|)
    ensures OccursAt(r, "Explanation:\n" + feedback + "\n", |ReportBanner()| + |GradeLine(grade)|)
    ensures |r| == |ReportBanner()| + |GradeLine(grade)| + |feedback| + 14 + 51
    ensures r[|r| - 51..] == ReportRule() + "\n"
  {
    var banner := ReportBanner();
    var g := GradeLine(grade);
    var e := "Explanation:\n" + feedback + "\n";
    var close := ReportRule() + "\n";
    Concat4(banner, g, e, close);
    banner + g + e + close
  }

  /** The report's rules are each exactly fifty `=` signs. */
  lemma ReportRuleShape()
    ensures |ReportRule()| == 50
    ensures forall i | 0 <= i < 50 :: ReportRule()[i] == '='
  {
  }
}

=== FILE: workflow.dfy ===
/**
  The conversation graph: eight nodes joined in a line from `START`, one
  conditional edge out of `ask_continue` chosen by `route_user_choice`, and a
  run of the graph from a state. A run is bounded by a step budget, which
  stands for the graph's recursion limit.
*/
module Workflow {
  import opened Wrappers
  import opened Errors
  import opened HealthState
  import Nodes
  import Text

  /** The graph's vertices: `START`, the eight nodes and `END`. */
  datatype Vertex =
    | Start
    | AskForTopic
    | SearchMedicalInfo
    | SummarizeResults
    | PresentSummary
    | GenerateQuiz
    | PresentQuiz
    | EvaluateAnswer
    | AskContinue
    | End

  /** The unconditional edges, one out of every vertex but `ask_continue` and `END`. */
  const FixedEdges: map<Vertex, Vertex> := map[
    Start := AskForTopic,
    AskForTopic := SearchMedicalInfo,
    SearchMedicalInfo := SummarizeResults,
    SummarizeResults := PresentSummary,
    PresentSummary := GenerateQuiz,
    GenerateQuiz := PresentQuiz,
    PresentQuiz := EvaluateAnswer,
    EvaluateAnswer := AskContinue]

  /** The path map of the conditional edge out of `ask_continue`. */
  const PathMap: map<string, Vertex> := map[
    "generate_quiz" := GenerateQuiz,
    "ask_for_topic" := AskForTopic,
    "end" := End]

  /**
    `route_user_choice`: `more_questions` goes back to quiz generation,
    `new_topic` to the topic question, and anything else, an unset choice
    included, ends the session.
  */
  function RouteUserChoice(s: State): (route: string)
    ensures route in PathMap
    ensures route == "generate_quiz" <==> s.shouldContinue == Some(Nodes.MoreQuestions)
    ensures route == "ask_for_topic" <==> s.shouldContinue == Some(Nodes.NewTopic)
    ensures route == "end" <==> s.shouldContinue !in {Some(Nodes.MoreQuestions), Some(Nodes.NewTopic)}
  {
    match s.shouldContinue
    case Some(choice) =>
      if choice == Nodes.MoreQuestions then "generate_quiz"
      else if choice == Nodes.NewTopic then "ask_for_topic"
      else "end"
    case None => "end"
  }

  /** There is an edge from `u` to `v`, fixed or conditional. */
  predicate Edge(u: Vertex, v: Vertex) {
    (u in FixedEdges && FixedEdges[u] == v) || (u == AskContinue && v in PathMap.Values)
  }

  /**
    The vertex the graph moves to after `v` has produced state `s`: every
    move follows an edge, and no move returns to `START`.
  */
  function Next(v: Vertex, s: State): (w: Vertex)
    ensures v != End ==> Edge(v, w)
    ensures w != Start
  {
    if v in FixedEdges then FixedEdges[v]
    else if v == AskContinue then
      var w := PathMap[RouteUserChoice(s)];
      assert w in PathMap.Values;
      w
    else End
  }

  /** The conditional edge reaches exactly `generate_quiz`, `ask_for_topic` and `END`. */
  lemma RouterTargets(v: Vertex)
    ensures (exists s :: Next(AskContinue, s) == v) <==> v in {GenerateQuiz, AskForTopic, End}
  {
    var s := SchemaDefaults([], None);
    if v == GenerateQuiz {
      assert Next(AskContinue, s.(shouldContinue := Some(Nodes.MoreQuestions))) == v;
    } else if v == AskForTopic {
      assert Next(AskContinue, s.(shouldContinue := Some(Nodes.NewTopic))) == v;
    } else if v == End {
      assert Next(AskContinue, s) == v;
    }
  }

  /** `END` is reached from `ask_continue` only, and only when the router says `end`. */
  lemma OnlyAskContinueEnds(v: Vertex, s: State)
    requires v != End && Next(v, s) == End
    ensures v == AskContinue && RouteUserChoice(s) == "end"
  {
  }

  /** The position of each vertex along the fixed line from `START`. */
  function Rank(v: Vertex): nat {
    match v
    case Start => 0
    case AskForTopic => 1
    case SearchMedicalInfo => 2
    case SummarizeResults => 3
    case PresentSummary => 4
    case GenerateQuiz => 5
    case PresentQuiz => 6
    case EvaluateAnswer => 7
    case AskContinue => 8
    case End => 9
  }

  /** The fixed edges form one line: each goes one step further along it. */
  lemma FixedEdgesAreALine(v: Vertex)
    requires v in FixedEdges
    ensures Rank(FixedEdges[v]) == Rank(v) + 1
  {
  }

  predicate IsPath(p: seq<Vertex>) {
    forall i | 0 <= i < |p| - 1 :: Edge(p[i], p[i + 1])
  }

  /** A path that avoids `ask_continue` moves one step along the line per edge. */
  lemma {:induction false} PathWithoutAskContinueClimbs(p: seq<Vertex>)
    requires |p| >= 1 && IsPath(p)
    requires forall i | 0 <= i < |p| - 1 :: p[i] != AskContinue
    ensures Rank(p[|p| - 1]) == Rank(p[0]) + |p| - 1
    decreases |p|
  {
    if |p| > 1 {
      var q := p[..|p| - 1];
      assert IsPath(q) by {
        forall i | 0 <= i < |q| - 1
          ensures Edge(q[i], q[i + 1])
        {
          assert Edge(p[i], p[i + 1]);
        }
      }
      PathWithoutAskContinueClimbs(q);
      assert Edge(p[|p| - 2], p[|p| - 1]);
      FixedEdgesAreALine(p[|p| - 2]);
    }
  }

  /** Every cycle of the graph passes through `ask_continue`. */
  lemma CyclesPassAskContinue(p: seq<Vertex>)
    requires |p| >= 2 && IsPath(p) && p[0] == p[|p| - 1]
    ensures exists i | 0 <= i < |p| - 1 :: p[i] == AskContinue
  {
    if forall i | 0 <= i < |p| - 1 :: p[i] != AskContinue {
      PathWithoutAskContinueClimbs(p);
    }
  }

  // ---------------------------------------------------------------------------
  // The `new_topic` choice, as written and as intended
  // ---------------------------------------------------------------------------

  /** Where the docstrings say each choice leads. */
  function DocumentedTarget(choice: string): Vertex {
    if choice == Nodes.MoreQuestions then GenerateQuiz
    else if choice == Nodes.NewTopic then AskForTopic
    else End
  }

  /**
    As written, choosing a new topic ends the session: the reset clears the
    choice the node has just recorded, and the router reads an unset choice
    as `end`. The other two choices lead where documented.
  */
  lemma NewTopicEndsSession(s: State, choice: string)
    requires choice in {Nodes.MoreQuestions, Nodes.NewTopic, Nodes.Exit}
    ensures Next(AskContinue, Nodes.ApplyChoice(s, choice)) == DocumentedTarget(choice) <==> choice != Nodes.NewTopic
    ensures Next(AskContinue, Nodes.ApplyChoice(s, Nodes.NewTopic)) == End
  {
  }

  /** With the corrected branch every choice leads where documented. */
  lemma IntendedChoiceRoutesAsDocumented(s: State, choice: string)
    requires choice in {Nodes.MoreQuestions, Nodes.NewTopic, Nodes.Exit}
    ensures Next(AskContinue, Nodes.ApplyChoiceIntended(s, choice)) == DocumentedTarget(choice)
  {
  }

  /** Where each choice leads once the node, as written, has applied it. */
  lemma ChoiceRoute(s: State, choice: string)
    ensures Next(AskContinue, Nodes.ApplyChoice(s, choice))
         == if choice == Nodes.MoreQuestions then GenerateQuiz else End
  {
  }

  /** The same, for the whole node: whatever line selects `new_topic`, the next vertex is `END`. */
  lemma AskContinueNewTopicEnds(s: State, inputs: seq<string>, k: nat)
    requires Nodes.FirstAccepted(inputs, Nodes.IsChoice, k) && Nodes.ChoiceOf(inputs[k]) == Nodes.NewTopic
    ensures Nodes.AskContinue(s, inputs).Success?
    ensures Next(AskContinue, Nodes.AskContinue(s, inputs).value.state) == End
  {
    Nodes.AskContinueTakesFirstChoice(s, inputs, k);
    ChoiceRoute(s, Nodes.NewTopic);
  }

  /**
    Answering "1" (in any case, with any surrounding whitespace) to the first
    continuation prompt that accepts an answer leads to another quiz question.
  */
  lemma AnswerOneAsksAnotherQuestion(s: State, inputs: seq<string>, k: nat)
    requires Nodes.FirstAccepted(inputs, Nodes.IsChoice, k) && Text.Lower(Text.Strip(inputs[k])) == "1"
    ensures Nodes.AskContinue(s, inputs).Success?
    ensures Next(AskContinue, Nodes.AskContinue(s, inputs).value.state) == GenerateQuiz
  {
    Nodes.NormalizeAnswerIsLowerStrip(inputs[k]);
    assert Nodes.ChoiceOf(inputs[k]) == Nodes.MoreQuestions;
    Nodes.AskContinueTakesFirstChoice(s, inputs, k);
    ChoiceRoute(s, Nodes.MoreQuestions);
  }

  /** With the corrected node, the same line leads to the topic question. */
  lemma AskContinueIntendedNewTopic(s: State, inputs: seq<string>, k: nat)
    requires Nodes.FirstAccepted(inputs, Nodes.IsChoice, k) && Nodes.ChoiceOf(inputs[k]) == Nodes.NewTopic
    ensures Nodes.AskContinueIntended(s, inputs).Success?
    ensures Next(AskContinue, Nodes.AskContinueIntended(s, inputs).value.state) == AskForTopic
  {
    Nodes.AskContinueIntendedTakesFirstChoice(s, inputs, k);
    IntendedChoiceRoutesAsDocumented(s, Nodes.NewTopic);
  }

  // ---------------------------------------------------------------------------
  // Initial state and run configuration
  // ---------------------------------------------------------------------------

  /** `initialize_empty_state`: no messages, every optional field unset, no quiz yet. */
  function InitializeEmptyState(): (s: State)
    ensures s.messages == [] && s.sessionId.None?
    ensures TopicScopedCleared(s)
  {
    State([], None, None, None, None, None, None, None, None, None, 0)
  }

  /** The empty state is the schema's default record, and the reset leaves it as it is. */
  lemma EmptyStateIsDefault()
    ensures InitializeEmptyState() == SchemaDefaults([], None)
    ensures ResetForNewTopic(InitializeEmptyState()) == InitializeEmptyState()
  {
    ResetFixedPoints(InitializeEmptyState());
  }

  datatype Config = Config(recursionLimit: int, threadId: string)

  /** `create_config`: the run's recursion limit and the checkpointer's thread id. */
  function CreateConfig(threadId: string := "healthbot_session_default", recursionLimit: int := 2000): (c: Config)
    ensures c.threadId == threadId && c.recursionLimit == recursionLimit
  {
    Config(recursionLimit, threadId)
  }

  /** The configuration the command-line runner creates. */
  function CliConfig(): (c: Config)
    ensures c.threadId == "healthbot_session_cli"
    ensures c.recursionLimit == CreateConfig().recursionLimit
  {
    CreateConfig(threadId := "healthbot_session_cli")
  }

  lemma CreateConfigDefaults()
    ensures CreateConfig() == Config(2000, "healthbot_session_default")
  {
  }

  // ---------------------------------------------------------------------------
  // Running the graph
  // ---------------------------------------------------------------------------

  /** Run vertex `v` on `s`: the node's outcome, with the input it left unread. */
  function RunNode(v: Vertex, s: State, env: Nodes.Env, inputs: seq<string>): Result<Nodes.Step, Failure> {
    match v
    case Start => Success(Nodes.Step(s, inputs))
    case AskForTopic => Nodes.AskForTopic(s, inputs)
    case SearchMedicalInfo => Within(Nodes.SearchMedicalInfo(s, env), inputs)
    case SummarizeResults => Within(Nodes.SummarizeResults(s, env), inputs)
    case PresentSummary => Nodes.PresentSummary(s, inputs)
    case GenerateQuiz => Within(Nodes.GenerateQuiz(s, env), inputs)
    case PresentQuiz => Nodes.PresentQuiz(s, inputs)
    case EvaluateAnswer => Within(Nodes.EvaluateAnswer(s, env), inputs)
    case AskContinue => Nodes.AskContinue(s, inputs)
    case End => Success(Nodes.Step(s, inputs))
  }

  /** A node that reads no input leaves all of it unread. */
  function Within(r: Result<State, Failure>, inputs: seq<string>): Result<Nodes.Step, Failure> {
    match r
    case Success(t) => Success(Nodes.Step(t, inputs))
    case Failure(e) => Failure(e)
  }

  /** How the graph executes one vertex. */
  type Executor = (Vertex, State, seq<string>) -> Result<Nodes.Step, Failure>

  /** The executor of the nodes above, in environment `env`. */
  function NodesIn(env: Nodes.Env): Executor {
    (v, s, inputs) => RunNode(v, s, env, inputs)
  }

  /** How a run ends: at `END`, on a node's exception, or with its step budget spent. */
  datatype RunResult =
    | Finished(state: State, rest: seq<string>)
    | Stopped(at: Vertex, error: Failure, state: State)
    | OutOfSteps(at: Vertex, state: State, rest: seq<string>)

  /**
    Run the graph from vertex `at`: execute the vertex, move along its edge
    with the new state, and repeat until `END`, an exception, or `steps`
    vertices have run. The executor is a parameter, so that what holds of
    every run is shown apart from what the nodes do.
  */
  function Run(at: Vertex, s: State, inputs: seq<string>, steps: nat, exec: Executor): (r: RunResult)
    ensures r.Stopped? ==> r.at != End
    ensures r.Finished? && at != End ==> RouteUserChoice(r.state) == "end"
    decreases steps
  {
    if at == End then Finished(s, inputs)
    else if steps == 0 then OutOfSteps(at, s, inputs)
    else
      match exec(at, s, inputs)
      case Failure(e) => Stopped(at, e, s)
      case Success(step) => Run(Next(at, step.state), step.state, step.rest, steps - 1, exec)
  }

  /**
    A session of the command-line runner: the graph invoked on the empty state
    with the configuration for thread "healthbot_session_cli". Only the
    configuration's recursion limit bears on the run. A finished session ends
    on a choice that routes to `end`.
  */
  function Session(env: Nodes.Env, inputs: seq<string>): (r: RunResult)
    ensures r.Finished? ==> RouteUserChoice(r.state) == "end"
  {
    Run(Start, InitializeEmptyState(), inputs, CliConfig().recursionLimit, NodesIn(env))
  }

  /** `START` passes the empty state on unchanged, so a session begins by asking for a topic. */
  lemma SessionBeginsWithTopic(env: Nodes.Env, inputs: seq<string>)
    ensures Session(env, inputs)
         == Run(AskForTopic, InitializeEmptyState(), inputs, CliConfig().recursionLimit - 1, NodesIn(env))
  {
    var s := InitializeEmptyState();
    assert NodesIn(env)(Start, s, inputs) == RunNode(Start, s, env, inputs);
    StartPassesThrough(s, inputs, CliConfig().recursionLimit - 1, NodesIn(env));
  }

  /** A step out of `START` that changes nothing leads straight to `ask_for_topic`. */
  lemma StartPassesThrough(s: State, inputs: seq<string>, steps: nat, exec: Executor)
    requires exec(Start, s, inputs) == Success(Nodes.Step(s, inputs))
    ensures Run(Start, s, inputs, steps + 1, exec) == Run(AskForTopic, s, inputs, steps, exec)
  {
  }

  /** Without any console input the session stops in `ask_for_topic`, with the empty state. */
  lemma SessionWithoutInput(env: Nodes.Env)
    ensures Session(env, []) == Stopped(AskForTopic, InputExhausted, InitializeEmptyState())
  {
    SessionBeginsWithTopic(env, []);
    assert NodesIn(env)(AskForTopic, InitializeEmptyState(), []) == Failure(InputExhausted);
  }

  /**
    With the code as written, answering `new_topic` ends the run at once,
    with the topic fields already cleared.
  */
  lemma NewTopicFinishesRun(s: State, env: Nodes.Env, inputs: seq<string>, k: nat, steps: nat)
    requires Nodes.FirstAccepted(inputs, Nodes.IsChoice, k) && Nodes.ChoiceOf(inputs[k]) == Nodes.NewTopic
    ensures Run(AskContinue, s, inputs, steps + 1, NodesIn(env)).Finished?
    ensures Run(AskContinue, s, inputs, steps + 1, NodesIn(env)).rest == inputs[k + 1..]
    ensures TopicScopedCleared(Run(AskContinue, s, inputs, steps + 1, NodesIn(env)).state)
  {
    var rest := inputs[k + 1..];
    var t := Nodes.ApplyChoice(s, Nodes.NewTopic);
    assert Nodes.AskContinue(s, inputs) == Success(Nodes.Step(t, rest)) by {
      Nodes.AskContinueTakesFirstChoice(s, inputs, k);
    }
    assert NodesIn(env)(AskContinue, s, inputs) == RunNode(AskContinue, s, env, inputs);
    ChoiceRoute(s, Nodes.NewTopic);
    LastStepFinishes(s, inputs, steps, NodesIn(env), t, rest);
  }

  // ---------------------------------------------------------------------------
  // The `more_questions` lap
  // ---------------------------------------------------------------------------

  /** A step out of `ask_continue` whose state routes to `END` finishes the run there. */
  lemma LastStepFinishes(s: State, inputs: seq<string>, steps: nat, exec: Executor, t: State, rest: seq<string>)
    requires exec(AskContinue, s, inputs) == Success(Nodes.Step(t, rest))
    requires Next(AskContinue, t) == End
    ensures Run(AskContinue, s, inputs, steps + 1, exec) == Finished(t, rest)
  {
  }

  /** The material of the current topic: what another quiz on it must not touch. */
  predicate SameMaterial(s: State, t: State) {
    s.healthTopic == t.healthTopic && s.searchResults == t.searchResults && s.summary == t.summary
  }

  /** Quiz generation counts one more quiz and leaves the topic's material alone. */
  lemma GenerateQuizKeepsMaterial(s: State, env: Nodes.Env)
    requires Nodes.GenerateQuiz(s, env).Success?
    ensures SameMaterial(s, Nodes.GenerateQuiz(s, env).value)
    ensures Nodes.GenerateQuiz(s, env).value.quizCount == s.quizCount + 1
  {
    var reply := env.llm(Nodes.QuizPrompt(s.healthTopic, s.summary.value, Nodes.AdditionalInstruction(s.quizCount + 1)));
    assert reply.Completion?;
  }

  /** Of the three choices, only `more_questions` leads back to quiz generation, and it keeps the material. */
  lemma BackToQuizKeepsMaterial(s: State, inputs: seq<string>)
    requires Nodes.AskContinue(s, inputs).Success?
    requires Next(AskContinue, Nodes.AskContinue(s, inputs).value.state) == GenerateQuiz
    ensures Nodes.AskContinue(s, inputs).value.state == Nodes.ApplyChoice(s, Nodes.MoreQuestions)
    ensures SameMaterial(s, Nodes.AskContinue(s, inputs).value.state)
  {
    var t := Nodes.AskContinue(s, inputs).value.state;
    ChoiceRoute(s, Nodes.NewTopic);
    ChoiceRoute(s, Nodes.Exit);
    assert t != Nodes.ApplyChoice(s, Nodes.NewTopic) && t != Nodes.ApplyChoice(s, Nodes.Exit);
  }

  /**
    A lap `generate_quiz` → `present_quiz` → `evaluate_answer` →
    `ask_continue` that comes back to `generate_quiz` keeps the topic, its
    search results and its summary, and counts exactly one more quiz.
  */
  lemma QuizLapKeepsMaterial(s0: State, env: Nodes.Env, inputs: seq<string>,
                             s1: State, st2: Nodes.Step, s3: State, st4: Nodes.Step)
    requires Nodes.GenerateQuiz(s0, env) == Success(s1)
    requires Nodes.PresentQuiz(s1, inputs) == Success(st2)
    requires Nodes.EvaluateAnswer(st2.state, env) == Success(s3)
    requires Nodes.AskContinue(s3, st2.rest) == Success(st4)
    requires Next(AskContinue, st4.state) == GenerateQuiz
    ensures SameMaterial(s0, st4.state) && st4.state.quizCount == s0.quizCount + 1
  {
    GenerateQuizKeepsMaterial(s0, env);
    assert SameMaterial(s1, st2.state) && st2.state.quizCount == s1.quizCount;
    assert SameMaterial(st2.state, s3) && s3.quizCount == st2.state.quizCount;
    BackToQuizKeepsMaterial(s3, st2.rest);
  }
}

=== FILE: wrappers.dfy ===
/** Optional values and the outcomes of calls that may raise. */
module Wrappers {

  /** A Python value that may be `None`. */
  datatype Option<+T> = None | Some(value: T)

  /** The outcome of a call that either returns a value or raises. */
  datatype Result<+R, +E> = Success(value: R) | Failure(error: E)

  /** The outcome of a validator that either returns `True` or raises. */
  datatype Outcome<+E> = Pass | Fail(error: E)
}
